=== FILE: README.md ===
# LX/LE loader: relocation pipeline

A Dafny model of the in-memory relocation pipeline of a loader for Linear
Executable images (the OS/2 LX format and the VxD LE variant). The model
covers these steps:

- sizing the three tables the loader reads from the header: the object table,
  the object page table and the fixup page table;
- decoding the 24-byte object descriptors;
- clamping each object's page range to the module's page count;
- scanning each page's fixup-record range with a self-advancing cursor, and
  attaching the records found to their object, each tagged with the byte
  offset of its page within the object;
- assembling an object's bytes from its pages into a zero-filled buffer of
  exactly `virtual_size` bytes, using the LE or the LX page addressing;
- patching that buffer in place, record by record and destination by
  destination, according to the relocation kind (0x05 16-bit offset,
  0x06 16:32 pointer, 0x07 32-bit offset, 0x08 32-bit self-relative), with
  the loader's skip rules;
- the entry-point address.

Modules follow the program's structure:

- `Bytes`: the little-endian codec that both the descriptor reader and the
  fixup emitter use.
- `Tables`: the header and the table entries, holding only the fields the
  loader reads.
- `ObjectTable`: the object descriptor (`LXObjectTable.java`).
- `Fixups`: `emitU16`, `emitU32` and `applyFixups`.
- `Image`: the table loaders, the fixup-record scan, the constructor and
  `getEIPAddress`.
- `Assembly`: `getPageFileOffset`, `getPageFileSize` and `readObjectData`.

Some of the places where a Java call would throw become preconditions:
a short read of the object table (`Image.ObjectTableInFile`) or of a page's
bytes (`Assembly.ReadsInFile`), a table index out of range, and a fixup
destination that is negative or ends past the buffer without being skipped.
A short read inside the page-table, fixup-page-table or fixup-record
decoders is not represented, because those decoders are total functions.
The throws that come only from Java's `(int)` casts are not preconditions
either. The "## Left out" section names both. No error path is invented where the code has
none. The header, object-page-table, fixup-page-table and fixup-record
decoders are not part of this model. The loader receives them as function values (`Tables.Decoders`).
The record decoder (`Tables.RecordDecoder`) stands for the constructor
`new LXFixupRecordTable(reader, base_offset)`. It gets the file, the
cursor and the page's base offset, and returns a record together with its
encoded size, which is positive. The record keeps the base offset it was
built with. The destination offsets it reports may depend on that base
offset. The record scan's termination rests on the positive size.

The read size of a page is capped as `LX.java:158-160` does it
(`Assembly.Cap`). The page with `oi + 1 == module_of_pages`, the module's
last page, is capped by `page_offset_shift`. Every other page is capped by
`page_size`, including the last page of an object that is not the
module's last.

## Model

| member | source | states |
|---|---|---|
| ObjectTable.DecodeObject | src/main/java/lx/LXObjectTable.java:28-35 | the five unsigned fields lie in [0, 2^32); the page table index, stored 0-based, lies in [-1, 2^32 - 2]; a fresh descriptor holds no fixups |
| ObjectTable.EncodeDecodeObject | src/main/java/lx/LXObjectTable.java:11-17 | any 24 bytes decode to a descriptor whose on-disk form (six little-endian words in diagram order, index stored 1-based) is exactly those bytes |
| ObjectTable.DecodeEncodeObject | src/main/java/lx/LXObjectTable.java:28-35 | decoding the on-disk form of a descriptor gives that descriptor back, including the 1-based to 0-based page-index conversion |
| ObjectTable.PermissionBits | src/main/java/lx/LXObjectTable.java:41-43 | readable, writable and executable are exactly bits 0, 1 and 2 of the object flags |
| Image.LoadObjectTable | src/main/java/lx/LX.java:31-45 | there are `objects_in_module` descriptors, and descriptor i is the one decoded at `base + object_table_offset + 24 i` |
| Image.ObjectTableRoundTrip | src/main/java/lx/LX.java:37-42 | each loaded descriptor re-encodes to exactly the 24 file bytes at its slot, so consecutive descriptors occupy consecutive 24-byte windows |
| Image.LoadObjectPageTable | src/main/java/lx/LX.java:47-61 | there are `module_of_pages` page entries, and entry i is decoded with the header's format at the table offset plus i entry sizes of that format |
| Image.LoadFixupPageTable | src/main/java/lx/LX.java:63-81 | there are `module_of_pages + 1` entries, the extra one closing the last page's record range |
| Image.PageEndIndex | src/main/java/lx/LX.java:163-165 | the end index is the smaller of `page_table_index + page_table_entries` and `module_of_pages` |
| Image.VisitedPagesInBounds | src/main/java/lx/LX.java:97-99 | for an addressable object, every visited `oi` is a valid page-table index, `oi + 1` a valid fixup-page-table index, `oi + 1 <= module_of_pages` (the assertion in getPageFileSize), and `oi` is one of the object's own pages |
| Image.ScanCursors | src/main/java/lx/LX.java:102-107 | cursors start at `start`, each is the previous one plus the size of the record read there, all lie in [start, end), and the scan stops at the first cursor whose record reaches `end` or beyond, with no overrun check |
| Image.ScanPageAtCursors | src/main/java/lx/LX.java:102-107 | `ScanPage`, the while loop, yields one record per cursor, in cursor order: the record the constructor builds at that cursor from the page's base offset, keeping that base offset |
| Image.ScanPageTagged | src/main/java/lx/LX.java:100-105 | every record found on page `oi` carries `base_offset = (oi - page_table_index) * page_size` |
| Image.PagesFixupsBases | src/main/java/lx/LX.java:97-108 | every record `PagesFixups` (the `oi` loop) finds on pages `oi` up to `end` carries the base offset of one of those pages, never below that of page `oi` |
| Image.PagesFixupsOrdered | src/main/java/lx/LX.java:97-108 | records are appended in discovery order: base offsets never decrease along an object's list |
| Image.ObjectFixupsShape | src/main/java/lx/LX.java:93-108 | an object's attached records (`ObjectFixups`) each carry the base offset `(p - page_table_index) * page_size` of a page `p` the loop visits, are never below zero, and come in page order |
| Image.AttachFixups | src/main/java/lx/LX.java:93-109 | each object keeps its fields and gets its own pages' records appended after the records it already had |
| Image.Load | src/main/java/lx/LX.java:112-127 | `data_pages_offset` is moved by the container offset exactly once; the tables are those read at the header's offsets; descriptor i is the decoded one with exactly its pages' records attached |
| Image.EipAddressOfLoad | src/main/java/lx/LX.java:249-251 | `EipAddress` (getEIPAddress) of a loaded image: the entry point is the 32-bit relocation base stored at byte 4 of descriptor `eip_object`, plus `eip` |
| Assembly.PageFileOffsetAligned | src/main/java/lx/LX.java:145-153 | `PageFileOffset` (getPageFileOffset) puts every page a whole number of pages past `data_pages_offset`, and LE page number 1 exactly at it |
| Assembly.LePageSlotsDisjoint | src/main/java/lx/LX.java:148-149 | in an LE image, pages with different page numbers occupy disjoint page-sized file slots, in page-number order |
| Assembly.PageOffsetFollowsContainer | src/main/java/lx/LX.java:121 | loading from a container offset moves every page's file offset by exactly that amount, in both the LE and the LX formula |
| Assembly.PageFileSize | src/main/java/lx/LX.java:155-161 | the read size is the minimum of what is left of `virtual_size` and the page's cap |
| Assembly.ShortReadOnlyAtEnd | src/main/java/lx/LX.java:158-160 | through `Cap`, a read shorter than `page_size` happens only at the module's last page or where the object's virtual size runs out, and the module's last page reads `page_offset_shift` bytes when that much is left |
| Assembly.PageReadsShape | src/main/java/lx/LX.java:236-242 | read k takes page `page_table_index + k` from its file offset with its sized read; the reads are chained (each starts where the previous stopped), so `0 <= datapos <= virtual_size` throughout |
| Assembly.ObjectReads | src/main/java/lx/LX.java:233-236 | the loop reads one page per index from the page table index up to the clamped end index |
| Assembly.FilledLength | src/main/java/lx/LX.java:236-242 | the reads stop at `virtual_size`, or at the sum of the pages' caps when the pages are too few |
| Assembly.CopyPage | src/main/java/lx/LX.java:238-240 | one copy puts the page's file bytes at `[datapos, datapos + rsize)` and changes no other byte |
| Assembly.CopyReadsContents | src/main/java/lx/LX.java:236-242 | after a chain of copies, every page's bytes sit at its slot and no byte outside the chain's span has changed |
| Assembly.ObjectBufferContents | src/main/java/lx/LX.java:231-243 | the assembled buffer is `virtual_size` bytes long, holds every visited page's bytes at its slot, and is zero from where the last page stopped |
| Assembly.ReadObjectData | src/main/java/lx/LX.java:231-247 | the page loop returns exactly the fixups applied to the fully assembled buffer, so no fixup sees a partially assembled object |
| Bytes.EncodeByte | src/main/java/lx/LX.java:172-177 | byte k written for a value is `(val >> 8k) & 0xFF`, for negative values too |
| Fixups.Emit | src/main/java/lx/LX.java:168-177 | emitting writes `val mod 256^width` little-endian at the offset and leaves every other byte unchanged |
| Fixups.ApplyDestination | src/main/java/lx/LX.java:195-226 | a destination past the buffer end, or of a kind the switch ignores, changes nothing; otherwise its bytes decode to the patch value (target address, or `d + trgoff` for 0x08) modulo 2^16 or 2^32; no byte outside `[d, d + width)` changes |
| Fixups.PatchedValueByKind | src/main/java/lx/LX.java:193-226 | through `Width`, `MemAddr` and `PatchValue`: 0x05 writes `reloc_base_addr + trgoff` mod 2^16 in 2 bytes, 0x06 and 0x07 write it mod 2^32 in 4 bytes, 0x08 writes `d + trgoff` mod 2^32 in 4 bytes, and any other kind leaves the buffer as it is |
| Fixups.ApplyDestinations | src/main/java/lx/LX.java:195-227 | a record's destinations change only bytes that one of them covers |
| Fixups.ApplyRecord | src/main/java/lx/LX.java:186-227 | a record changes only bytes that its destinations cover; a 0x02 record covers none |
| Fixups.ApplyFixups | src/main/java/lx/LX.java:180-229 | the buffer keeps its length, and a byte no destination of any record covers keeps its value |
| Fixups.ApplyFixupsAppend | src/main/java/lx/LX.java:185-228 | applying the records of `a + b` is applying `a` and then `b` |
| Fixups.IneffectiveRecordUnchanged | src/main/java/lx/LX.java:188-210 | a 0x02 record, a record of an unpatched kind, or one whose every destination is past the end leaves the buffer as it is |
| Fixups.DropIneffectiveRecord | src/main/java/lx/LX.java:185-228 | removing such a record from an object's list does not change the patched buffer |
| Fixups.FixupsKeepRange | src/main/java/lx/LX.java:185-228 | records that cover no byte of a range leave the range as it was |
| Fixups.RecordLastWriteWins | src/main/java/lx/LX.java:195-227 | within a record, a destination's bytes hold its patch value unless a later destination of the same record overlaps them |
| Fixups.LastWriteWins | src/main/java/lx/LX.java:185-228 | after the whole list, destination j of record k holds its patch value whenever no later destination or record overlaps it |
| Fixups.SelfRelativeIgnoresRelocation | src/main/java/lx/LX.java:223-225 | a 0x08 record writes the same bytes whatever the objects' relocation bases are |
| Fixups.FarPointerPatchedAsOffset32 | src/main/java/lx/LX.java:216-222 | a 0x06 record is patched exactly as a 0x07 record: a 32-bit address and no selector |

## Left out

- Java's `(int)` casts and the range of `int` and `long` are not modelled. All integers are unbounded. The casts truncate `objects_in_module`, `module_of_pages`, `virtual_size`, `page_table_index`, `eip_object`, the read size and the target object index; `datapos` and the page index are 32-bit. The model adds no precondition for a throw that a cast alone causes; every such throw is outside the model. Among them:
  - `new LXObjectTable[(int)header.objects_in_module]` (LX.java:37) throws for an `objects_in_module` of 2^31 or more;
  - `new LXObjectPageTable[(int)header.module_of_pages]` (LX.java:53) throws for a `module_of_pages` of 2^31 or more;
  - `new LXFixupPageTable[(int)header.module_of_pages + 1]` (LX.java:73) throws from a `module_of_pages` of 2^31 - 1 on, where the `+ 1` wraps to a negative size;
  - `new byte[(int)ot.virtual_size]` (LX.java:232) throws for a `virtual_size` of 2^31 or more;
  - a `page_table_index` of 2^31 or more becomes a negative array index (LX.java:97, 236);
  - an `eip_object` of 2^31 or more becomes a negative index (LX.java:250).

  `Image.Load`, `Image.EipAddressOfLoad` and `Assembly.ReadObjectData` accept such values and return the unbounded result. The model therefore describes the code only for images whose values fit in a Java `int`.
- `BinaryReader` positioning and stream I/O are left out. The file is a byte sequence indexed at absolute offsets. A short read of the object table or of a page's bytes becomes a precondition: `Image.ObjectTableInFile` and `Assembly.ReadsInFile`.
- Short reads inside the page-table, fixup-page-table and fixup-record decoders are not represented (LX.java:55-58, 75-78, 102-104). Those decoders are total functions, so `Image.Load` returns full-length tables and a record at every cursor even where the file is too short and Java would throw an `IOException`.
- Reader endianness is set outside the loader and is not modelled. The 32-bit fields are always decoded little-endian.
- The byte layouts of `LXHeader`, `LXObjectPageTable`, `LXFixupPageTable` and `LXFixupRecordTable` are not part of this model. They are records with the fields the loader reads, filled by decoders passed in as function values.
- The model assumes each record constructor advances the reader by exactly `getSizeInFile()`, so the next record is decoded at the cursor plus that size. Java decodes the next record wherever the reader stopped; `start` only drives the loop test (LX.java:102-106).
- Whether `getDSTOffset` already adds the record's base offset is not visible. The decoder receives the base offset and reports destination offsets that are buffer-relative, as `applyFixups` uses them. Whether it adds the base offset is left to the decoder.
- `appendFixupTable` and `fixupTableIterator` are not in the object descriptor class. The descriptor holds a sequence of records instead.
- Out-of-range array accesses are preconditions:
  - `Image.Loadable`: a negative `page_table_index` over a non-empty page range.
  - `Fixups.FixupsSafe`: a target object out of range, or a destination that is negative or within the last 1–3 bytes of the buffer (or at its end).
  - `Image.EipAddressOfLoad`: `eip_object` out of range.
- Cross-page negative fixup offsets, and the selector half of a 0x06 pointer, are left out. The code handles neither, and the model writes the 32-bit address only.
- The Ghidra memory-block creation in the commented-out `createObject` is left out. The permission bits are stated only as a reading of the flags (`ObjectTable.PermissionBits`).
- The accessors `getHeader`, `getLXObjectTable`, `getLXObjectPageTable` and `sizeOfLXObjectTable` are plain field and sequence accesses in the model.

=== FILE: assembly.dfy ===
/**
 Assembling one object's memory image: the object's pages are read from the
 file one after another into a zero-filled buffer of the object's virtual
 size, then the object's fixup records are applied to that buffer.
 */
module Assembly {
  import opened Bytes
  import opened Tables
  import opened ObjectTable
  import opened Image
  import opened Fixups

  // ---------------------------------------------------------------------
  // Where a page lies in the file and how much of it is read

  /** getPageFileOffset: LE pages are numbered from 1 and laid out one page
      size apart; an LX entry's page is found from its data offset and size. */
  function PageFileOffset(img: Image, oi: int): int
    requires 0 <= oi < |img.pages|
  {
    var e := img.pages[oi];
    var h := img.header;
    match h.format
    case LE => (e.pageNum - 1) * h.pageSize + h.dataPagesOffset
    case LX => (e.pageDataOffset + e.dataSize - 1) * h.pageSize + h.dataPagesOffset
  }

  /** The most a page read may take: the module's last page (not the
      object's) is capped by `page_offset_shift`, every other page by the
      page size. */
  function Cap(h: Header, oi: int): nat
  {
    if oi + 1 == h.modulePages then h.pageOffsetShift else h.pageSize
  }

  /** getPageFileSize: the smaller of what is left of the object's virtual
      size and the page's cap. */
  function PageFileSize(h: Header, o: ObjectDescriptor, oi: int, datapos: int): (n: int)
    requires oi + 1 <= h.modulePages
    ensures n <= o.virtualSize - datapos && n <= Cap(h, oi)
    ensures n == o.virtualSize - datapos || n == Cap(h, oi)
  {
    var left := o.virtualSize - datapos;
    if left <= Cap(h, oi) then left else Cap(h, oi)
  }

  /** Every page starts a whole number of pages past `data_pages_offset`;
      in an LE image, page number 1 starts exactly there. */
  lemma PageFileOffsetAligned(img: Image, oi: int)
    requires 0 <= oi < |img.pages| && img.header.pageSize > 0
    ensures (PageFileOffset(img, oi) - img.header.dataPagesOffset) % img.header.pageSize == 0
    ensures img.header.format == LE && img.pages[oi].pageNum == 1 ==> PageFileOffset(img, oi) == img.header.dataPagesOffset
  {
    var e := img.pages[oi];
    var h := img.header;
    var slot := match h.format
      case LE => e.pageNum - 1
      case LX => e.pageDataOffset + e.dataSize - 1;
    assert PageFileOffset(img, oi) - h.dataPagesOffset == slot * h.pageSize;
    DivModUnique(slot * h.pageSize, h.pageSize, slot, 0);
  }

  /** A read shorter than a full page happens only at the module's last page
      or where the object's virtual size runs out. */
  lemma ShortReadOnlyAtEnd(h: Header, o: ObjectDescriptor, oi: int, datapos: int)
    requires oi + 1 <= h.modulePages
    ensures PageFileSize(h, o, oi, datapos) < h.pageSize && oi + 1 != h.modulePages
            ==> PageFileSize(h, o, oi, datapos) == o.virtualSize - datapos
    ensures oi + 1 == h.modulePages && h.pageOffsetShift <= o.virtualSize - datapos
            ==> PageFileSize(h, o, oi, datapos) == h.pageOffsetShift
  {
    assert oi + 1 != h.modulePages ==> Cap(h, oi) == h.pageSize;
  }

  // ---------------------------------------------------------------------
  // The read plan

  /** One page read: `size` bytes from `fileOffset` in the file, copied to
      `datapos` in the object's buffer. */
  datatype PageRead = PageRead(fileOffset: int, datapos: int, size: int)

  /** Each read starts where the previous one stopped, beginning at `datapos`. */
  predicate Chained(plan: seq<PageRead>, datapos: int)
    decreases |plan|
  {
    |plan| == 0 ||
    (plan[0].datapos == datapos && 0 <= plan[0].size && Chained(plan[1..], datapos + plan[0].size))
  }

  /** Where the last of a chain of reads starting at `datapos` stops. */
  function ReadsEnd(plan: seq<PageRead>, datapos: int): int
    decreases |plan|
  {
    if |plan| == 0 then datapos else ReadsEnd(plan[1..], datapos + plan[0].size)
  }

  /** The reads of pages `oi` up to `end`, the first one copied to `datapos`. */
  function PageReads(img: Image, o: ObjectDescriptor, oi: int, end: int, datapos: int): (r: seq<PageRead>)
    requires TablesSized(img)
    requires oi < end ==> 0 <= oi && end <= img.header.modulePages
    requires 0 <= datapos <= o.virtualSize
    ensures |r| == if oi < end then end - oi else 0
    decreases end - oi
  {
    if oi >= end then []
    else
      var n := PageFileSize(img.header, o, oi, datapos);
      [PageRead(PageFileOffset(img, oi), datapos, n)] + PageReads(img, o, oi + 1, end, datapos + n)
  }

  /** Read `k` takes page `oi + k` from its file offset, sized by what is
      left and the page's cap; the reads are chained from `datapos` and stay
      inside the object's virtual size. */
  lemma {:induction false} PageReadsShape(img: Image, o: ObjectDescriptor, oi: int, end: int, datapos: int)
    requires TablesSized(img)
    requires oi < end ==> 0 <= oi && end <= img.header.modulePages
    requires 0 <= datapos <= o.virtualSize
    ensures var r := PageReads(img, o, oi, end, datapos);
      && Chained(r, datapos)
      && datapos <= ReadsEnd(r, datapos) <= o.virtualSize
      && (forall k :: 0 <= k < |r| ==> ReadShape(img, o, oi, datapos, r, k))
    decreases end - oi
  {
    if oi < end {
      var r := PageReads(img, o, oi, end, datapos);
      var n := PageFileSize(img.header, o, oi, datapos);
      var rest := PageReads(img, o, oi + 1, end, datapos + n);
      assert r[1..] == rest;
      PageReadsShape(img, o, oi + 1, end, datapos + n);
      forall k | 0 <= k < |r|
        ensures ReadShape(img, o, oi, datapos, r, k)
      {
        if k > 0 {
          assert r[k] == rest[k - 1];
          assert ReadShape(img, o, oi + 1, datapos + n, rest, k - 1);
        }
      }
    }
  }

  /** Read `k` of a plan starting at page `oi` and position `datapos`. */
  predicate ReadShape(img: Image, o: ObjectDescriptor, oi: int, datapos: int, r: seq<PageRead>, k: int)
    requires 0 <= k < |r|
  {
    && datapos <= r[k].datapos && 0 <= r[k].size && r[k].datapos + r[k].size <= o.virtualSize
    && 0 <= oi + k < |img.pages| && oi + k + 1 <= img.header.modulePages
    && r[k].fileOffset == PageFileOffset(img, oi + k)
    && r[k].size == PageFileSize(img.header, o, oi + k, r[k].datapos)
  }

  /** readObjectData's page loop: every page from the page table index up to
      the end index, filling the buffer from its start. */
  function ObjectReads(img: Image, o: ObjectDescriptor): (r: seq<PageRead>)
    requires TablesSized(img) && Addressable(img.header, o)
    ensures |r| == if o.pageTableIndex < PageEndIndex(img.header, o) then PageEndIndex(img.header, o) - o.pageTableIndex else 0
  {
    PageReads(img, o, o.pageTableIndex, PageEndIndex(img.header, o), 0)
  }

  /** The sum of the caps of pages `oi` up to `end`. */
  function SumCaps(h: Header, oi: int, end: int): nat
    decreases end - oi
  {
    if oi >= end then 0 else Cap(h, oi) + SumCaps(h, oi + 1, end)
  }

  /** The reads fill the buffer up to the object's virtual size or, when the
      pages are too few, up to the sum of their caps; the rest stays zero. */
  lemma {:induction false} FilledLength(img: Image, o: ObjectDescriptor, oi: int, end: int, datapos: int)
    requires TablesSized(img)
    requires oi < end ==> 0 <= oi && end <= img.header.modulePages
    requires 0 <= datapos <= o.virtualSize
    ensures var e := ReadsEnd(PageReads(img, o, oi, end, datapos), datapos);
      e == if datapos + SumCaps(img.header, oi, end) <= o.virtualSize
           then datapos + SumCaps(img.header, oi, end) else o.virtualSize
    decreases end - oi
  {
    if oi < end {
      var n := PageFileSize(img.header, o, oi, datapos);
      var r := PageReads(img, o, oi, end, datapos);
      assert r[1..] == PageReads(img, o, oi + 1, end, datapos + n);
      FilledLength(img, o, oi + 1, end, datapos + n);
    }
  }

  // ---------------------------------------------------------------------
  // Copying the pages

  /** A read the file can satisfy: the Java reader faults on a short read. */
  predicate PageReadable(file: seq<byte>, rd: PageRead)
  {
    0 <= rd.size && 0 <= rd.fileOffset && rd.fileOffset + rd.size <= |file|
  }

  predicate ReadsInFile(file: seq<byte>, plan: seq<PageRead>)
  {
    forall k :: 0 <= k < |plan| ==> PageReadable(file, plan[k])
  }

  /** Every read both comes from the file and lands inside a buffer of `len` bytes. */
  predicate ReadsFit(file: seq<byte>, plan: seq<PageRead>, len: int)
  {
    forall k :: 0 <= k < |plan| ==>
      PageReadable(file, plan[k]) && 0 <= plan[k].datapos && plan[k].datapos + plan[k].size <= len
  }

  /** System.arraycopy of one page read into the buffer. */
  function CopyPage(file: seq<byte>, rd: PageRead, data: seq<byte>): (r: seq<byte>)
    requires PageReadable(file, rd) && 0 <= rd.datapos && rd.datapos + rd.size <= |data|
    ensures |r| == |data|
    ensures r[rd.datapos..rd.datapos + rd.size] == file[rd.fileOffset..rd.fileOffset + rd.size]
    ensures forall i :: 0 <= i < |data| && !(rd.datapos <= i < rd.datapos + rd.size) ==> r[i] == data[i]
  {
    var r := data[..rd.datapos] + file[rd.fileOffset..rd.fileOffset + rd.size] + data[rd.datapos + rd.size..];
    assert r[rd.datapos..rd.datapos + rd.size] == file[rd.fileOffset..rd.fileOffset + rd.size];
    r
  }

  /** The reads performed in order. */
  function CopyReads(file: seq<byte>, plan: seq<PageRead>, data: seq<byte>): (r: seq<byte>)
    requires ReadsFit(file, plan, |data|)
    ensures |r| == |data|
    decreases |plan|
  {
    if |plan| == 0 then data
    else CopyReads(file, plan[1..], CopyPage(file, plan[0], data))
  }

  /** A chain of reads places each page's bytes at its slot and leaves every
      byte outside the chain's span alone. */
  lemma {:induction false} CopyReadsContents(file: seq<byte>, plan: seq<PageRead>, data: seq<byte>, datapos: int)
    requires ReadsFit(file, plan, |data|) && Chained(plan, datapos)
    ensures var r := CopyReads(file, plan, data);
      && (forall k :: 0 <= k < |plan| ==> Placed(r, file, plan[k]))
      && (forall i :: 0 <= i < |data| && !(datapos <= i < ReadsEnd(plan, datapos)) ==> r[i] == data[i])
    decreases |plan|
  {
    if |plan| > 0 {
      var rd := plan[0];
      var d1 := CopyPage(file, rd, data);
      var next := datapos + rd.size;
      assert ReadsFit(file, plan[1..], |d1|) by {
        forall k | 0 <= k < |plan[1..]|
          ensures PageReadable(file, plan[1..][k]) && 0 <= plan[1..][k].datapos
          ensures plan[1..][k].datapos + plan[1..][k].size <= |d1|
        {
          assert plan[1..][k] == plan[k + 1];
        }
      }
      CopyReadsContents(file, plan[1..], d1, next);
      var r := CopyReads(file, plan, data);
      assert r == CopyReads(file, plan[1..], d1);
      ChainStaysAbove(plan[1..], next);
      forall k | 0 <= k < |plan|
        ensures Placed(r, file, plan[k])
      {
        if k == 0 {
          forall i | rd.datapos <= i < rd.datapos + rd.size
            ensures r[i] == d1[i]
          {
          }
          assert r[rd.datapos..rd.datapos + rd.size] == d1[rd.datapos..rd.datapos + rd.size];
        } else {
          assert plan[k] == plan[1..][k - 1];
        }
      }
    }
  }

  /** A chain never ends before it starts. */
  lemma {:induction false} ChainStaysAbove(plan: seq<PageRead>, datapos: int)
    requires Chained(plan, datapos)
    ensures datapos <= ReadsEnd(plan, datapos)
    decreases |plan|
  {
    if |plan| > 0 {
      ChainStaysAbove(plan[1..], datapos + plan[0].size);
    }
  }

  /** The buffer holds the read's bytes at the read's slot. */
  predicate Placed(buf: seq<byte>, file: seq<byte>, rd: PageRead)
  {
    && PageReadable(file, rd) && 0 <= rd.datapos && rd.datapos + rd.size <= |buf|
    && buf[rd.datapos..rd.datapos + rd.size] == file[rd.fileOffset..rd.fileOffset + rd.size]
  }

  function Zeros(n: nat): (z: seq<byte>)
    ensures |z| == n && forall i :: 0 <= i < n ==> z[i] == 0
  {
    seq(n, _ => 0)
  }

  /** The object's buffer once its pages are read and before any fixup. */
  function ObjectBuffer(file: seq<byte>, img: Image, o: ObjectDescriptor): (buf: seq<byte>)
    requires TablesSized(img) && Addressable(img.header, o)
    requires ReadsInFile(file, ObjectReads(img, o))
    ensures |buf| == o.virtualSize
  {
    ObjectReadsFit(file, img, o);
    CopyReads(file, ObjectReads(img, o), Zeros(o.virtualSize))
  }

  /** The object's reads that the file can satisfy all land inside its buffer. */
  lemma ObjectReadsFit(file: seq<byte>, img: Image, o: ObjectDescriptor)
    requires TablesSized(img) && Addressable(img.header, o)
    requires ReadsInFile(file, ObjectReads(img, o))
    ensures var plan := ObjectReads(img, o);
      && ReadsFit(file, plan, o.virtualSize)
      && Chained(plan, 0) && ReadsEnd(plan, 0) <= o.virtualSize
  {
    var plan := ObjectReads(img, o);
    PageReadsShape(img, o, o.pageTableIndex, PageEndIndex(img.header, o), 0);
    forall k | 0 <= k < |plan|
      ensures PageReadable(file, plan[k]) && 0 <= plan[k].datapos && plan[k].datapos + plan[k].size <= o.virtualSize
    {
      assert ReadShape(img, o, o.pageTableIndex, 0, plan, k);
    }
  }

  /** The object's buffer is its virtual size long, holds every page's bytes
      at that page's slot, and is zero from where the last page stopped. */
  lemma ObjectBufferContents(file: seq<byte>, img: Image, o: ObjectDescriptor)
    requires TablesSized(img) && Addressable(img.header, o)
    requires ReadsInFile(file, ObjectReads(img, o))
    ensures var buf := ObjectBuffer(file, img, o);
      var plan := ObjectReads(img, o);
      && |buf| == o.virtualSize
      && (forall k :: 0 <= k < |plan| ==> Placed(buf, file, plan[k]))
      && (forall i :: 0 <= i < |buf| && ReadsEnd(plan, 0) <= i ==> buf[i] == 0)
  {
    var plan := ObjectReads(img, o);
    ObjectReadsFit(file, img, o);
    CopyReadsContents(file, plan, Zeros(o.virtualSize), 0);
  }

  // ---------------------------------------------------------------------
  // Properties of the page layout

  /** LE pages with different page numbers occupy disjoint page-sized slots
      of the file. */
  lemma LePageSlotsDisjoint(img: Image, a: int, b: int)
    requires img.header.format == LE
    requires 0 <= a < |img.pages| && 0 <= b < |img.pages|
    requires img.pages[a].pageNum < img.pages[b].pageNum
    ensures PageFileOffset(img, a) + img.header.pageSize <= PageFileOffset(img, b)
  {
    var ps := img.header.pageSize;
    var na := img.pages[a].pageNum - 1;
    var nb := img.pages[b].pageNum - 1;
    MulStep(nb - na - 1, ps);
    assert nb * ps == na * ps + (nb - na) * ps;
  }

  lemma MulStep(d: int, ps: nat)
    requires 0 <= d
    ensures (d + 1) * ps >= ps
  {
  }

  /** Moving the executable inside its container by `exeOffset` bytes moves
      every page's file offset by the same amount. */
  lemma PageOffsetFollowsContainer(file: seq<byte>, base: nat, exeOffset: nat, raw: Header, decs: Decoders, oi: int)
    requires Loadable(file, base, raw) && 0 <= oi < raw.modulePages
    ensures var moved := Load(file, base, exeOffset, raw, decs);
      var bare := Load(file, base, 0, raw, decs);
      PageFileOffset(moved, oi) == PageFileOffset(bare, oi) + exeOffset
  {
    var moved := Load(file, base, exeOffset, raw, decs);
    var bare := Load(file, base, 0, raw, decs);
    PageOffsetShift(bare, moved, exeOffset, oi);
  }

  lemma PageOffsetShift(a: Image, b: Image, d: int, oi: int)
    requires a.pages == b.pages && b.header.dataPagesOffset == a.header.dataPagesOffset + d
    requires a.header.(dataPagesOffset := 0) == b.header.(dataPagesOffset := 0)
    requires 0 <= oi < |a.pages|
    ensures PageFileOffset(b, oi) == PageFileOffset(a, oi) + d
  {
    assert a.header.format == b.header.format && a.header.pageSize == b.header.pageSize;
  }

  // ---------------------------------------------------------------------
  // readObjectData

  /** One turn of the page loop reads inside the file and writes inside the buffer. */
  lemma StepInBounds(file: seq<byte>, img: Image, o: ObjectDescriptor, oi: int, end: int, datapos: int, len: int)
    requires TablesSized(img) && 0 <= oi < end <= img.header.modulePages
    requires 0 <= datapos <= o.virtualSize
    requires ReadsFit(file, PageReads(img, o, oi, end, datapos), len)
    ensures 0 <= PageFileSize(img.header, o, oi, datapos)
    ensures datapos + PageFileSize(img.header, o, oi, datapos) <= o.virtualSize
    ensures 0 <= PageFileOffset(img, oi)
    ensures PageFileOffset(img, oi) + PageFileSize(img.header, o, oi, datapos) <= |file|
  {
    var plan := PageReads(img, o, oi, end, datapos);
    assert PageReadable(file, plan[0]);
  }

  /** Copying the read of page `oi` leaves the remaining reads to do the rest. */
  lemma StepPreserves(file: seq<byte>, img: Image, o: ObjectDescriptor, oi: int, end: int, datapos: int,
                      n: int, off: int, data: seq<byte>, next: seq<byte>)
    requires TablesSized(img) && 0 <= oi < end <= img.header.modulePages
    requires 0 <= datapos <= o.virtualSize && |data| == o.virtualSize
    requires ReadsFit(file, PageReads(img, o, oi, end, datapos), |data|)
    requires n == PageFileSize(img.header, o, oi, datapos) && off == PageFileOffset(img, oi)
    requires 0 <= n && datapos + n <= |data| && 0 <= off && off + n <= |file|
    requires next == data[..datapos] + file[off..off + n] + data[datapos + n..]
    ensures ReadsFit(file, PageReads(img, o, oi + 1, end, datapos + n), |next|)
    ensures CopyReads(file, PageReads(img, o, oi, end, datapos), data)
         == CopyReads(file, PageReads(img, o, oi + 1, end, datapos + n), next)
  {
    var plan := PageReads(img, o, oi, end, datapos);
    assert plan[0] == PageRead(off, datapos, n);
    assert next == CopyPage(file, plan[0], data);
    assert plan[1..] == PageReads(img, o, oi + 1, end, datapos + n);
    assert ReadsFit(file, plan[1..], |next|) by {
      forall k | 0 <= k < |plan[1..]|
        ensures PageReadable(file, plan[1..][k]) && 0 <= plan[1..][k].datapos
        ensures plan[1..][k].datapos + plan[1..][k].size <= |next|
      {
        assert plan[1..][k] == plan[k + 1];
      }
    }
  }

  /** The remaining reads from the loop's next index and position are the
      ones the step left. */
  lemma StepAdvances(file: seq<byte>, img: Image, o: ObjectDescriptor, oi: int, end: int, datapos: int,
                     n: int, data: seq<byte>, next: seq<byte>, oi': int, datapos': int)
    requires TablesSized(img) && 0 <= oi < end <= img.header.modulePages
    requires 0 <= datapos && 0 <= n && datapos + n <= o.virtualSize
    requires ReadsFit(file, PageReads(img, o, oi, end, datapos), |data|)
    requires ReadsFit(file, PageReads(img, o, oi + 1, end, datapos + n), |next|)
    requires CopyReads(file, PageReads(img, o, oi, end, datapos), data)
          == CopyReads(file, PageReads(img, o, oi + 1, end, datapos + n), next)
    requires oi' == oi + 1 && datapos' == datapos + n
    ensures ReadsFit(file, PageReads(img, o, oi', end, datapos'), |next|)
    ensures CopyReads(file, PageReads(img, o, oi, end, datapos), data)
         == CopyReads(file, PageReads(img, o, oi', end, datapos'), next)
  {
    PlanCongruent(img, o, oi', oi + 1, end, datapos', datapos + n);
  }

  lemma PlanCongruent(img: Image, o: ObjectDescriptor, a: int, b: int, end: int, d: int, e: int)
    requires TablesSized(img)
    requires a < end ==> 0 <= a && end <= img.header.modulePages
    requires 0 <= d <= o.virtualSize
    requires a == b && d == e
    ensures PageReads(img, o, a, end, d) == PageReads(img, o, b, end, e)
  {
  }

  /** Reads the object's pages into a zero-filled buffer of its virtual size
      and applies its fixup records. */
  method ReadObjectData(file: seq<byte>, img: Image, o: ObjectDescriptor) returns (data: seq<byte>)
    requires TablesSized(img) && Addressable(img.header, o)
    requires ReadsInFile(file, ObjectReads(img, o))
    requires FixupsSafe(img.objects, o.fixups, o.virtualSize)
    ensures |data| == o.virtualSize
    ensures data == ApplyFixups(img.objects, o.fixups, ObjectBuffer(file, img, o))
  {
    var h := img.header;
    var end := PageEndIndex(h, o);
    ObjectReadsFit(file, img, o);
    data := Zeros(o.virtualSize);
    var datapos := 0;
    var oi := o.pageTableIndex;
    while oi < end
      invariant o.pageTableIndex <= oi && (oi <= end || oi == o.pageTableIndex)
      invariant 0 <= datapos <= o.virtualSize && |data| == o.virtualSize
      invariant oi < end ==> 0 <= oi
      invariant ReadsFit(file, PageReads(img, o, oi, end, datapos), |data|)
      invariant CopyReads(file, PageReads(img, o, oi, end, datapos), data) == ObjectBuffer(file, img, o)
      decreases end - oi
    {
      var rsize := PageFileSize(h, o, oi, datapos);
      var offset := PageFileOffset(img, oi);
      StepInBounds(file, img, o, oi, end, datapos, |data|);
      var xdata := file[offset..offset + rsize];
      var next := data[..datapos] + xdata + data[datapos + rsize..];
      var oi', datapos' := oi + 1, datapos + rsize;
      StepPreserves(file, img, o, oi, end, datapos, rsize, offset, data, next);
      StepAdvances(file, img, o, oi, end, datapos, rsize, data, next, oi', datapos');
      data, datapos, oi := next, datapos', oi';
    }
    data := ApplyFixups(img.objects, o.fixups, data);
  }
}

=== FILE: bytes.dfy ===
/**
 Little-endian byte codec shared by the object-descriptor reader and the
 fixup emitter. A byte is an integer in [0, 256); a value of any sign is
 encoded by its two's-complement low-order bytes, which is what a Java
 shift-and-mask (`(val >> 8*k) & 0xFF`) produces.
 */
module Bytes {

  type byte = b: int | 0 <= b < 256

  const TWO16: nat := 0x1_0000
  const TWO32: nat := 0x1_0000_0000

  function Pow256(n: nat): (r: nat)
    ensures r > 0
  {
    if n == 0 then 1 else 256 * Pow256(n - 1)
  }

  lemma Pow256Values()
    ensures Pow256(2) == TWO16
    ensures Pow256(4) == TWO32
  {
    assert Pow256(1) == 256;
    assert Pow256(3) == 256 * 65536;
  }

  /** The unsigned value of a little-endian byte string. */
  function DecodeLE(bs: seq<byte>): (v: nat)
    ensures v < Pow256(|bs|)
  {
    if |bs| == 0 then 0 else bs[0] + 256 * DecodeLE(bs[1..])
  }

  /** The `n` low-order bytes of `v`, least significant first. */
  function EncodeLE(v: int, n: nat): (bs: seq<byte>)
    ensures |bs| == n
    decreases n
  {
    if n == 0 then [] else [v % 256] + EncodeLE(v / 256, n - 1)
  }

  /** An unsigned 32-bit little-endian field at offset `p`. */
  function ReadU32(s: seq<byte>, p: int): (v: nat)
    requires 0 <= p && p + 4 <= |s|
    ensures v < TWO32
  {
    Pow256Values();
    DecodeLE(s[p..p + 4])
  }

  /** Euclidean quotient and remainder are unique. */
  lemma DivModUnique(v: int, m: int, q: int, r: int)
    requires m > 0 && 0 <= r < m && v == m * q + r
    ensures v / m == q && v % m == r
  {
    MulBounded(m, v / m - q);
  }

  lemma MulBounded(m: int, d: int)
    requires m > 0
    ensures -m < m * d < m ==> d == 0
  {
    if d >= 1 {
      assert m * d >= m * 1;
    } else if d <= -1 {
      assert m * (-d) >= m * 1;
    }
  }

  /** Dividing by 256 and then by `p` is dividing by `256 * p`. */
  lemma DivModNest(v: int, p: int)
    requires p > 0
    ensures v / (256 * p) == (v / 256) / p
    ensures v % (256 * p) == v % 256 + 256 * ((v / 256) % p)
  {
    var q := v / 256;
    var a := q / p;
    var b := q % p;
    assert q == p * a + b;
    assert v == 256 * q + v % 256;
    assert v == (256 * p) * a + (256 * b + v % 256) by {
      assert 256 * q == 256 * (p * a) + 256 * b;
      assert 256 * (p * a) == (256 * p) * a;
    }
    assert 0 <= 256 * b + v % 256 < 256 * p;
    DivModUnique(v, 256 * p, a, 256 * b + v % 256);
  }

  /** Decoding an encoding gives the value modulo 256^n. */
  lemma {:induction false} DecodeEncode(v: int, n: nat)
    ensures DecodeLE(EncodeLE(v, n)) == v % Pow256(n)
    decreases n
  {
    if n > 0 {
      var bs := EncodeLE(v, n);
      assert bs[1..] == EncodeLE(v / 256, n - 1);
      DecodeEncode(v / 256, n - 1);
      DivModNest(v, Pow256(n - 1));
    }
  }

  /** Encoding a decoded byte string gives back the same bytes. */
  lemma {:induction false} EncodeDecode(bs: seq<byte>)
    ensures EncodeLE(DecodeLE(bs), |bs|) == bs
  {
    if |bs| > 0 {
      var v := DecodeLE(bs);
      DivModUnique(v, 256, DecodeLE(bs[1..]), bs[0]);
      EncodeDecode(bs[1..]);
    }
  }

  /** Byte `k` of the encoding is `(v >> 8*k) & 0xFF`, written with floor division. */
  lemma {:induction false} EncodeByte(v: int, n: nat, k: nat)
    requires k < n
    ensures EncodeLE(v, n)[k] == (v / Pow256(k)) % 256
    decreases k
  {
    if k > 0 {
      assert EncodeLE(v, n)[k] == EncodeLE(v / 256, n - 1)[k - 1];
      EncodeByte(v / 256, n - 1, k - 1);
      DivModNest(v, Pow256(k - 1));
      assert Pow256(k) == 256 * Pow256(k - 1);
    }
  }

  /** Consecutive 32-bit little-endian words. */
  function EncodeWords(ws: seq<int>): (bs: seq<byte>)
    ensures |bs| == 4 * |ws|
  {
    if |ws| == 0 then [] else EncodeLE(ws[0], 4) + EncodeWords(ws[1..])
  }

  /** A slice lying wholly in the second part of a concatenation. */
  lemma SliceOfAppend(a: seq<byte>, b: seq<byte>, lo: int, hi: int)
    requires |a| <= lo <= hi <= |a| + |b|
    ensures (a + b)[lo..hi] == b[lo - |a|..hi - |a|]
  {
  }

  /** Word `k` of an encoding occupies bytes [4k, 4k + 4). */
  lemma {:induction false} EncodeWordsSlice(ws: seq<int>, k: nat)
    requires k < |ws|
    ensures EncodeWords(ws)[4 * k..4 * k + 4] == EncodeLE(ws[k], 4)
    decreases k
  {
    var head := EncodeLE(ws[0], 4);
    var tail := EncodeWords(ws[1..]);
    assert EncodeWords(ws) == head + tail;
    if k == 0 {
      assert (head + tail)[0..4] == head;
    } else {
      EncodeWordsSlice(ws[1..], k - 1);
      SliceOfAppend(head, tail, 4 * k, 4 * k + 4);
    }
  }

  /** Word `k` of an encoding reads back, when it fits in 32 bits. */
  lemma EncodeWordsRead(ws: seq<int>, k: nat, p: int)
    requires k < |ws| && 0 <= ws[k] < TWO32 && p == 4 * k
    ensures ReadU32(EncodeWords(ws), p) == ws[k]
  {
    var v := ws[k];
    EncodeWordsSlice(ws, k);
    DecodeEncode(v, 4);
    Pow256Values();
    DivModUnique(v, TWO32, 0, v);
  }

  /** `n` consecutive 32-bit little-endian words starting at offset `p`. */
  function ReadWords(s: seq<byte>, p: int, n: nat): (ws: seq<nat>)
    requires 0 <= p && p + 4 * n <= |s|
    ensures |ws| == n
    decreases n
  {
    if n == 0 then [] else [ReadU32(s, p)] + ReadWords(s, p + 4, n - 1)
  }

  /** Word `k` of `n` consecutive words is the one at offset `p + 4k`. */
  lemma {:induction false} ReadWordsAt(s: seq<byte>, p: int, n: nat, k: nat)
    requires 0 <= p && p + 4 * n <= |s| && k < n
    ensures ReadWords(s, p, n)[k] == ReadU32(s, p + 4 * k)
    decreases k
  {
    assert ReadWords(s, p, n) == [ReadU32(s, p)] + ReadWords(s, p + 4, n - 1);
    if k > 0 {
      ReadWordsAt(s, p + 4, n - 1, k - 1);
    }
  }

  /** Re-encoding the words read from consecutive offsets gives back the bytes read. */
  lemma {:induction false} EncodeReadWords(s: seq<byte>, p: int, n: nat)
    requires 0 <= p && p + 4 * n <= |s|
    ensures EncodeWords(ReadWords(s, p, n)) == s[p..p + 4 * n]
    decreases n
  {
    if n > 0 {
      var ws := ReadWords(s, p, n);
      var head, tail := s[p..p + 4], s[p + 4..p + 4 * n];
      ReadWordsCons(s, p, n);
      EncodeReadWords(s, p + 4, n - 1);
      ReadU32Encodes(s, p);
      assert EncodeLE(ws[0], 4) == head;
      assert EncodeWords(ws[1..]) == tail;
      assert EncodeWords(ws) == head + tail;
      SliceSplit(s, p, p + 4, p + 4 * n);
    }
  }

  lemma ReadWordsCons(s: seq<byte>, p: int, n: nat)
    requires 0 <= p && p + 4 * n <= |s| && n > 0
    ensures ReadWords(s, p, n)[0] == ReadU32(s, p)
    ensures ReadWords(s, p, n)[1..] == ReadWords(s, p + 4, n - 1)
  {
    assert ReadWords(s, p, n) == [ReadU32(s, p)] + ReadWords(s, p + 4, n - 1);
  }

  /** Re-encoding a 32-bit field gives back its four bytes. */
  lemma ReadU32Encodes(s: seq<byte>, p: int)
    requires 0 <= p && p + 4 <= |s|
    ensures EncodeLE(ReadU32(s, p), 4) == s[p..p + 4]
  {
    EncodeDecode(s[p..p + 4]);
  }

  lemma SliceSplit(s: seq<byte>, a: int, b: int, c: int)
    requires 0 <= a <= b <= c <= |s|
    ensures s[a..c] == s[a..b] + s[b..c]
  {
  }
}

=== FILE: fixups.dfy ===
/**
 Fixup application: patching an object's assembled buffer in place,
 record by record and destination by destination, according to the
 record's source type.
 */
module Fixups {
  import opened Bytes
  import opened Tables
  import opened ObjectTable

  const SOURCE_UNSUPPORTED := 0x02
  const SOURCE_OFFSET16 := 0x05
  const SOURCE_POINTER1632 := 0x06
  const SOURCE_OFFSET32 := 0x07
  const SOURCE_SELF_RELATIVE32 := 0x08

  /** Number of bytes written for a source type; zero for the types the
      applier does not patch. */
  function Width(sourceType: int): nat
  {
    if sourceType == SOURCE_OFFSET16 then 2
    else if sourceType == SOURCE_POINTER1632 || sourceType == SOURCE_OFFSET32
         || sourceType == SOURCE_SELF_RELATIVE32 then 4
    else 0
  }

  /** emitU16 / emitU32: overwrite `width` bytes at `offset` with the low
      bytes of `val`, little-endian. */
  function Emit(data: seq<byte>, offset: int, val: int, width: nat): (r: seq<byte>)
    requires 0 <= offset && offset + width <= |data|
    ensures |r| == |data|
    ensures DecodeLE(r[offset..offset + width]) == val % Pow256(width)
    ensures forall i :: 0 <= i < |data| && !(offset <= i < offset + width) ==> r[i] == data[i]
  {
    DecodeEncode(val, width);
    var r := data[..offset] + EncodeLE(val, width) + data[offset + width..];
    assert r[offset..offset + width] == EncodeLE(val, width);
    r
  }

  /** The absolute address a record resolves to: the relocation base of its
      target object plus its target offset. */
  function MemAddr(objects: seq<ObjectDescriptor>, f: FixupRecord): int
    requires 0 <= f.targetObject < |objects|
  {
    objects[f.targetObject].relocBaseAddr + f.trgoff
  }

  /** The value a record writes at destination `d`: the target address,
      except for the self-relative kind, which writes `d + trgoff`. */
  function PatchValue(objects: seq<ObjectDescriptor>, f: FixupRecord, d: int): int
    requires 0 <= f.targetObject < |objects|
  {
    if f.sourceType == SOURCE_SELF_RELATIVE32 then d + f.trgoff else MemAddr(objects, f)
  }

  /** A destination is skipped only when it lies strictly past the end of
      the buffer; anything else that would write outside the buffer faults. */
  predicate Skipped(d: int, len: int)
  {
    len < d
  }

  predicate DestinationSafe(sourceType: int, d: int, len: int)
  {
    Skipped(d, len) || Width(sourceType) == 0 || (0 <= d && d + Width(sourceType) <= len)
  }

  /** A record can be applied to a buffer of length `len` without faulting:
      unless its kind is 0x02, its target object exists and every
      destination is skipped, unpatched or fully inside the buffer. */
  predicate RecordSafe(objects: seq<ObjectDescriptor>, f: FixupRecord, len: int)
  {
    f.sourceType == SOURCE_UNSUPPORTED
    || (&& 0 <= f.targetObject < |objects|
        && DestinationsSafe(f.sourceType, f.dstOffsets, len))
  }

  predicate DestinationsSafe(sourceType: int, ds: seq<int>, len: int)
  {
    forall i :: 0 <= i < |ds| ==> DestinationSafe(sourceType, ds[i], len)
  }

  predicate FixupsSafe(objects: seq<ObjectDescriptor>, fixups: seq<FixupRecord>, len: int)
  {
    forall k :: 0 <= k < |fixups| ==> RecordSafe(objects, fixups[k], len)
  }

  /** Destination `d` of record `f` writes byte `i` of a buffer of length `len`. */
  predicate Covers(f: FixupRecord, d: int, len: int, i: int)
  {
    f.sourceType != SOURCE_UNSUPPORTED && !Skipped(d, len) && d <= i < d + Width(f.sourceType)
  }

  /** Patches one destination of a record. */
  function ApplyDestination(data: seq<byte>, objects: seq<ObjectDescriptor>, f: FixupRecord, d: int): (r: seq<byte>)
    requires f.sourceType != SOURCE_UNSUPPORTED
    requires 0 <= f.targetObject < |objects| && DestinationSafe(f.sourceType, d, |data|)
    ensures |r| == |data|
    ensures Skipped(d, |data|) || Width(f.sourceType) == 0 ==> r == data
    ensures !Skipped(d, |data|) && Width(f.sourceType) > 0 ==>
      DecodeLE(r[d..d + Width(f.sourceType)]) == PatchValue(objects, f, d) % Pow256(Width(f.sourceType))
    ensures forall i :: 0 <= i < |data| && !Covers(f, d, |data|, i) ==> r[i] == data[i]
  {
    var memAddr := MemAddr(objects, f);
    if Skipped(d, |data|) then data
    else if f.sourceType == SOURCE_OFFSET16 then Emit(data, d, memAddr, 2)
    else if f.sourceType == SOURCE_POINTER1632 then Emit(data, d, memAddr, 4)
    else if f.sourceType == SOURCE_OFFSET32 then Emit(data, d, memAddr, 4)
    else if f.sourceType == SOURCE_SELF_RELATIVE32 then Emit(data, d, d + f.trgoff, 4)
    else data
  }

  /** What one destination receives, by relocation kind: 0x05 the 16-bit
      target address, 0x06 and 0x07 the 32-bit target address (relocation
      base of the target object plus `trgoff`), 0x08 the 32-bit `d + trgoff`;
      any other kind leaves the buffer as it is. */
  lemma PatchedValueByKind(data: seq<byte>, objects: seq<ObjectDescriptor>, f: FixupRecord, d: int)
    requires f.sourceType != SOURCE_UNSUPPORTED
    requires 0 <= f.targetObject < |objects| && DestinationSafe(f.sourceType, d, |data|) && !Skipped(d, |data|)
    ensures var r := ApplyDestination(data, objects, f, d);
      var target := objects[f.targetObject].relocBaseAddr + f.trgoff;
      && (f.sourceType == SOURCE_OFFSET16 ==> DecodeLE(r[d..d + 2]) == target % TWO16)
      && (f.sourceType == SOURCE_POINTER1632 || f.sourceType == SOURCE_OFFSET32 ==> DecodeLE(r[d..d + 4]) == target % TWO32)
      && (f.sourceType == SOURCE_SELF_RELATIVE32 ==> DecodeLE(r[d..d + 4]) == (d + f.trgoff) % TWO32)
      && (Width(f.sourceType) == 0 ==> r == data)
  {
    Pow256Values();
  }

  /** Patches the destinations `ds` of record `f`, in order. */
  function ApplyDestinations(data: seq<byte>, objects: seq<ObjectDescriptor>, f: FixupRecord, ds: seq<int>): (r: seq<byte>)
    requires f.sourceType != SOURCE_UNSUPPORTED && 0 <= f.targetObject < |objects|
    requires DestinationsSafe(f.sourceType, ds, |data|)
    ensures |r| == |data|
    ensures forall i :: 0 <= i < |data| && !WritesByte(f, ds, |data|, i) ==> r[i] == data[i]
    decreases |ds|
  {
    if |ds| == 0 then data
    else
      assert forall i :: !WritesByte(f, ds, |data|, i) ==> !WritesByte(f, ds[1..], |data|, i) by {
        forall i | WritesByte(f, ds[1..], |data|, i)
          ensures WritesByte(f, ds, |data|, i)
        {
          var k :| 0 <= k < |ds[1..]| && Covers(f, ds[1..][k], |data|, i);
          assert Covers(f, ds[k + 1], |data|, i);
        }
      }
      ApplyDestinations(ApplyDestination(data, objects, f, ds[0]), objects, f, ds[1..])
  }

  /** Some destination in `ds` of record `f` writes byte `i`. */
  predicate WritesByte(f: FixupRecord, ds: seq<int>, len: int, i: int)
  {
    exists k :: 0 <= k < |ds| && Covers(f, ds[k], len, i)
  }

  /** Applies one record: kind 0x02 is skipped whole. */
  function ApplyRecord(data: seq<byte>, objects: seq<ObjectDescriptor>, f: FixupRecord): (r: seq<byte>)
    requires RecordSafe(objects, f, |data|)
    ensures |r| == |data|
    ensures forall i :: 0 <= i < |data| && !WritesByte(f, f.dstOffsets, |data|, i) ==> r[i] == data[i]
  {
    if f.sourceType == SOURCE_UNSUPPORTED then data
    else ApplyDestinations(data, objects, f, f.dstOffsets)
  }

  /** applyFixups: the object's records applied in their attached order. */
  function ApplyFixups(objects: seq<ObjectDescriptor>, fixups: seq<FixupRecord>, data: seq<byte>): (r: seq<byte>)
    requires FixupsSafe(objects, fixups, |data|)
    ensures |r| == |data|
    ensures forall i :: 0 <= i < |data| && !PatchedByAny(fixups, |data|, i) ==> r[i] == data[i]
    decreases |fixups|
  {
    if |fixups| == 0 then data
    else
      var next := ApplyRecord(data, objects, fixups[0]);
      assert forall i :: !PatchedByAny(fixups, |data|, i) ==> !PatchedByAny(fixups[1..], |data|, i) by {
        forall i | PatchedByAny(fixups[1..], |data|, i)
          ensures PatchedByAny(fixups, |data|, i)
        {
          var k :| 0 <= k < |fixups[1..]| && WritesByte(fixups[1..][k], fixups[1..][k].dstOffsets, |data|, i);
          assert fixups[1..][k] == fixups[k + 1];
        }
      }
      ApplyFixups(objects, fixups[1..], next)
  }

  /** Some destination of some record writes byte `i`. */
  predicate PatchedByAny(fixups: seq<FixupRecord>, len: int, i: int)
  {
    exists k :: 0 <= k < |fixups| && WritesByte(fixups[k], fixups[k].dstOffsets, len, i)
  }

  /** Applying `a + b` is applying `a` and then `b`. */
  lemma {:induction false} ApplyFixupsAppend(objects: seq<ObjectDescriptor>, a: seq<FixupRecord>, b: seq<FixupRecord>, data: seq<byte>)
    requires FixupsSafe(objects, a + b, |data|)
    ensures FixupsSafe(objects, a, |data|)
    ensures FixupsSafe(objects, b, |data|)
    ensures ApplyFixups(objects, a + b, data) == ApplyFixups(objects, b, ApplyFixups(objects, a, data))
    decreases |a|
  {
    assert forall k :: 0 <= k < |a| ==> a[k] == (a + b)[k];
    assert forall k :: 0 <= k < |b| ==> b[k] == (a + b)[|a| + k];
    if |a| > 0 {
      assert (a + b)[1..] == a[1..] + b;
      ApplyFixupsAppend(objects, a[1..], b, ApplyRecord(data, objects, a[0]));
    } else {
      assert a + b == b;
    }
  }

  /** Patching `ds + es` is patching `ds` and then `es`. */
  lemma {:induction false} ApplyDestinationsAppend(data: seq<byte>, objects: seq<ObjectDescriptor>, f: FixupRecord, ds: seq<int>, es: seq<int>)
    requires f.sourceType != SOURCE_UNSUPPORTED && 0 <= f.targetObject < |objects|
    requires DestinationsSafe(f.sourceType, ds + es, |data|)
    ensures DestinationsSafe(f.sourceType, ds, |data|)
    ensures DestinationsSafe(f.sourceType, es, |data|)
    ensures ApplyDestinations(data, objects, f, ds + es)
         == ApplyDestinations(ApplyDestinations(data, objects, f, ds), objects, f, es)
    decreases |ds|
  {
    assert forall i :: 0 <= i < |ds| ==> ds[i] == (ds + es)[i];
    assert forall i :: 0 <= i < |es| ==> es[i] == (ds + es)[|ds| + i];
    if |ds| > 0 {
      assert (ds + es)[1..] == ds[1..] + es;
      ApplyDestinationsAppend(ApplyDestination(data, objects, f, ds[0]), objects, f, ds[1..], es);
    } else {
      assert ds + es == es;
    }
  }

  /** The records the applier passes over without writing: kind 0x02, a
      kind it does not patch, or every destination past the buffer end. */
  predicate Ineffective(f: FixupRecord, len: int)
  {
    || f.sourceType == SOURCE_UNSUPPORTED
    || Width(f.sourceType) == 0
    || forall i :: 0 <= i < |f.dstOffsets| ==> Skipped(f.dstOffsets[i], len)
  }

  /** An ineffective record leaves the buffer as it is. */
  lemma IneffectiveRecordUnchanged(data: seq<byte>, objects: seq<ObjectDescriptor>, f: FixupRecord)
    requires RecordSafe(objects, f, |data|) && Ineffective(f, |data|)
    ensures ApplyRecord(data, objects, f) == data
  {
    var r := ApplyRecord(data, objects, f);
    forall i | 0 <= i < |data|
      ensures r[i] == data[i]
    {
      assert !WritesByte(f, f.dstOffsets, |data|, i);
    }
  }

  /** Removing an ineffective record from an object's list does not change
      the patched buffer. */
  lemma DropIneffectiveRecord(objects: seq<ObjectDescriptor>, a: seq<FixupRecord>, f: FixupRecord, b: seq<FixupRecord>, data: seq<byte>)
    requires FixupsSafe(objects, a + [f] + b, |data|) && Ineffective(f, |data|)
    ensures FixupsSafe(objects, a + b, |data|)
    ensures ApplyFixups(objects, a + [f] + b, data) == ApplyFixups(objects, a + b, data)
  {
    ApplyFixupsAppend(objects, a + [f], b, data);
    ApplyFixupsAppend(objects, a, [f], data);
    var m := ApplyFixups(objects, a, data);
    assert ApplyFixups(objects, [f], m) == ApplyFixups(objects, [], ApplyRecord(m, objects, f));
    IneffectiveRecordUnchanged(m, objects, f);
    assert FixupsSafe(objects, a + b, |data|) by {
      forall k | 0 <= k < |a + b|
        ensures RecordSafe(objects, (a + b)[k], |data|)
      {
        if k < |a| {
          assert (a + b)[k] == (a + [f] + b)[k];
        } else {
          assert (a + b)[k] == (a + [f] + b)[k + 1];
        }
      }
    }
    ApplyFixupsAppend(objects, a, b, data);
  }

  /** Destination `d` of record `f` is written: the kind is patched and `d`
      is not past the buffer end. */
  predicate Effective(f: FixupRecord, d: int, len: int)
  {
    f.sourceType != SOURCE_UNSUPPORTED && !Skipped(d, len) && Width(f.sourceType) > 0
  }

  /** Applying a record is patching the destinations before `j`, then
      destination `j`, then the ones after it. */
  lemma SplitRecordAt(data: seq<byte>, objects: seq<ObjectDescriptor>, f: FixupRecord, j: nat)
    requires RecordSafe(objects, f, |data|) && f.sourceType != SOURCE_UNSUPPORTED
    requires j < |f.dstOffsets|
    ensures DestinationsSafe(f.sourceType, f.dstOffsets[..j], |data|)
    ensures DestinationsSafe(f.sourceType, f.dstOffsets[j + 1..], |data|)
    ensures ApplyRecord(data, objects, f)
         == ApplyDestinations(
              ApplyDestination(ApplyDestinations(data, objects, f, f.dstOffsets[..j]), objects, f, f.dstOffsets[j]),
              objects, f, f.dstOffsets[j + 1..])
  {
    var ds := f.dstOffsets;
    var head, d, rest := ds[..j], ds[j], ds[j + 1..];
    assert ds == head + [d] + rest;
    ApplyDestinationsAppend(data, objects, f, head + [d], rest);
    ApplyDestinationsAppend(data, objects, f, head, [d]);
    var m2 := ApplyDestinations(data, objects, f, head);
    assert ApplyDestinations(m2, objects, f, [d]) == ApplyDestination(m2, objects, f, d);
  }

  /** No destination in `ds` of record `f` writes any byte in `[lo, hi)`. */
  predicate MissesRange(f: FixupRecord, ds: seq<int>, len: int, lo: int, hi: int)
  {
    forall j, i :: 0 <= j < |ds| && lo <= i < hi ==> !Covers(f, ds[j], len, i)
  }

  /** No record of `fs` writes any byte in `[lo, hi)`. */
  predicate RecordsMissRange(fs: seq<FixupRecord>, len: int, lo: int, hi: int)
  {
    forall k :: 0 <= k < |fs| ==> MissesRange(fs[k], fs[k].dstOffsets, len, lo, hi)
  }

  /** Destinations that miss a range leave its bytes as they were. */
  lemma DestinationsKeepRange(data: seq<byte>, objects: seq<ObjectDescriptor>, f: FixupRecord, ds: seq<int>, lo: int, hi: int)
    requires f.sourceType != SOURCE_UNSUPPORTED && 0 <= f.targetObject < |objects|
    requires DestinationsSafe(f.sourceType, ds, |data|)
    requires 0 <= lo <= hi <= |data| && MissesRange(f, ds, |data|, lo, hi)
    ensures ApplyDestinations(data, objects, f, ds)[lo..hi] == data[lo..hi]
  {
    var r := ApplyDestinations(data, objects, f, ds);
    forall i | lo <= i < hi
      ensures r[i] == data[i]
    {
      assert !WritesByte(f, ds, |data|, i);
    }
  }

  /** Records that miss a range leave its bytes as they were. */
  lemma FixupsKeepRange(objects: seq<ObjectDescriptor>, fs: seq<FixupRecord>, data: seq<byte>, lo: int, hi: int)
    requires FixupsSafe(objects, fs, |data|)
    requires 0 <= lo <= hi <= |data| && RecordsMissRange(fs, |data|, lo, hi)
    ensures ApplyFixups(objects, fs, data)[lo..hi] == data[lo..hi]
  {
    var r := ApplyFixups(objects, fs, data);
    assert |r| == |data|;
    forall i | lo <= i < hi
      ensures r[i] == data[i]
    {
      RecordsMissByte(fs, |data|, lo, hi, i);
      assert 0 <= i < |data| && !PatchedByAny(fs, |data|, i);
    }
    assert r[lo..hi] == data[lo..hi];
  }

  lemma RecordsMissByte(fs: seq<FixupRecord>, len: int, lo: int, hi: int, i: int)
    requires RecordsMissRange(fs, len, lo, hi) && lo <= i < hi
    ensures !PatchedByAny(fs, len, i)
  {
    forall k | 0 <= k < |fs|
      ensures !WritesByte(fs[k], fs[k].dstOffsets, len, i)
    {
      assert MissesRange(fs[k], fs[k].dstOffsets, len, lo, hi);
    }
  }

  /** Within one record, destination `j` keeps its patch value unless a
      later destination of the same record overwrites it. */
  lemma RecordLastWriteWins(data: seq<byte>, objects: seq<ObjectDescriptor>, f: FixupRecord, j: nat)
    requires RecordSafe(objects, f, |data|)
    requires j < |f.dstOffsets| && Effective(f, f.dstOffsets[j], |data|)
    requires MissesRange(f, f.dstOffsets[j + 1..], |data|, f.dstOffsets[j], f.dstOffsets[j] + Width(f.sourceType))
    ensures 0 <= f.targetObject < |objects|
    ensures 0 <= f.dstOffsets[j] && f.dstOffsets[j] + Width(f.sourceType) <= |data|
    ensures DecodeLE(ApplyRecord(data, objects, f)[f.dstOffsets[j]..f.dstOffsets[j] + Width(f.sourceType)])
         == PatchValue(objects, f, f.dstOffsets[j]) % Pow256(Width(f.sourceType))
  {
    var d := f.dstOffsets[j];
    var w := Width(f.sourceType);
    assert DestinationSafe(f.sourceType, d, |data|);
    SplitRecordAt(data, objects, f, j);
    var m2 := ApplyDestinations(data, objects, f, f.dstOffsets[..j]);
    var m3 := ApplyDestination(m2, objects, f, d);
    DestinationsKeepRange(m3, objects, f, f.dstOffsets[j + 1..], d, d + w);
  }

  /** Applying a list is applying the records before `k`, then record `k`,
      then the ones after it. */
  lemma SplitFixupsAt(objects: seq<ObjectDescriptor>, fs: seq<FixupRecord>, data: seq<byte>, k: nat)
    requires FixupsSafe(objects, fs, |data|) && k < |fs|
    ensures FixupsSafe(objects, fs[..k], |data|)
    ensures FixupsSafe(objects, fs[k + 1..], |data|)
    ensures RecordSafe(objects, fs[k], |data|)
    ensures ApplyFixups(objects, fs, data)
         == ApplyFixups(objects, fs[k + 1..], ApplyRecord(ApplyFixups(objects, fs[..k], data), objects, fs[k]))
  {
    var before, f, after := fs[..k], fs[k], fs[k + 1..];
    assert fs == before + [f] + after;
    ApplyFixupsAppend(objects, before + [f], after, data);
    ApplyFixupsAppend(objects, before, [f], data);
    var m := ApplyFixups(objects, before, data);
    assert ApplyFixups(objects, [f], m) == ApplyRecord(m, objects, f);
  }

  /** After the whole list is applied, the bytes of destination `j` of record
      `k` hold that destination's patch value, little-endian, provided no
      later destination writes any of them: a later patch wins. */
  lemma LastWriteWins(objects: seq<ObjectDescriptor>, fs: seq<FixupRecord>, data: seq<byte>, k: nat, j: nat)
    requires FixupsSafe(objects, fs, |data|)
    requires k < |fs| && j < |fs[k].dstOffsets|
    requires Effective(fs[k], fs[k].dstOffsets[j], |data|)
    requires MissesRange(fs[k], fs[k].dstOffsets[j + 1..], |data|,
                         fs[k].dstOffsets[j], fs[k].dstOffsets[j] + Width(fs[k].sourceType))
    requires RecordsMissRange(fs[k + 1..], |data|, fs[k].dstOffsets[j], fs[k].dstOffsets[j] + Width(fs[k].sourceType))
    ensures 0 <= fs[k].targetObject < |objects|
    ensures 0 <= fs[k].dstOffsets[j] && fs[k].dstOffsets[j] + Width(fs[k].sourceType) <= |data|
    ensures DecodeLE(ApplyFixups(objects, fs, data)[fs[k].dstOffsets[j]..fs[k].dstOffsets[j] + Width(fs[k].sourceType)])
         == PatchValue(objects, fs[k], fs[k].dstOffsets[j]) % Pow256(Width(fs[k].sourceType))
  {
    var f := fs[k];
    var d := f.dstOffsets[j];
    var w := Width(f.sourceType);
    var len := |data|;
    SplitFixupsAt(objects, fs, data, k);
    var m := ApplyFixups(objects, fs[..k], data);
    assert |m| == len;
    assert RecordSafe(objects, f, |m|) && Effective(f, d, |m|);
    assert MissesRange(f, f.dstOffsets[j + 1..], |m|, d, d + w);
    RecordLastWriteWins(m, objects, f, j);
    var m1 := ApplyRecord(m, objects, f);
    assert |m1| == len;
    assert FixupsSafe(objects, fs[k + 1..], |m1|) && RecordsMissRange(fs[k + 1..], |m1|, d, d + w);
    FixupsKeepRange(objects, fs[k + 1..], m1, d, d + w);
    var r := ApplyFixups(objects, fs, data);
    assert r == ApplyFixups(objects, fs[k + 1..], m1);
    assert r[d..d + w] == m1[d..d + w];
  }

  /** A self-relative (0x08) record writes the same bytes whatever the
      relocation bases of the objects are. */
  lemma {:induction false} SelfRelativeIgnoresRelocation(
    data: seq<byte>, objects: seq<ObjectDescriptor>, others: seq<ObjectDescriptor>, f: FixupRecord, ds: seq<int>)
    requires f.sourceType == SOURCE_SELF_RELATIVE32
    requires 0 <= f.targetObject < |objects| && 0 <= f.targetObject < |others|
    requires DestinationsSafe(f.sourceType, ds, |data|)
    ensures ApplyDestinations(data, objects, f, ds) == ApplyDestinations(data, others, f, ds)
    decreases |ds|
  {
    if |ds| > 0 {
      var next := ApplyDestination(data, objects, f, ds[0]);
      assert PatchValue(objects, f, ds[0]) == PatchValue(others, f, ds[0]);
      assert next == ApplyDestination(data, others, f, ds[0]);
      SelfRelativeIgnoresRelocation(next, objects, others, f, ds[1..]);
    }
  }

  /** A 16:32 pointer (0x06) record is patched exactly as a 32-bit offset
      (0x07) record: no selector is written. */
  lemma {:induction false} FarPointerPatchedAsOffset32(
    data: seq<byte>, objects: seq<ObjectDescriptor>, f: FixupRecord, ds: seq<int>)
    requires f.sourceType == SOURCE_POINTER1632 && 0 <= f.targetObject < |objects|
    requires DestinationsSafe(f.sourceType, ds, |data|)
    ensures ApplyDestinations(data, objects, f, ds)
         == ApplyDestinations(data, objects, f.(sourceType := SOURCE_OFFSET32), ds)
    decreases |ds|
  {
    if |ds| > 0 {
      var g := f.(sourceType := SOURCE_OFFSET32);
      var next := ApplyDestination(data, objects, f, ds[0]);
      assert MemAddr(objects, f) == MemAddr(objects, g);
      assert next == ApplyDestination(data, objects, g, ds[0]);
      FarPointerPatchedAsOffset32(next, objects, f, ds[1..]);
    }
  }
}

=== FILE: image.dfy ===
/**
 The loaded image: the header, the object table, the object page table and
 the fixup page table, and the scan that attaches every fixup record to
 the object whose pages it was found on.
 */
module Image {
  import opened Bytes
  import opened Tables
  import opened ObjectTable

  /** `base` is the offset of the LX header within the container; all table
      offsets of the header are relative to it. */
  datatype Image = Image(
    base: nat,
    header: Header,
    objects: seq<ObjectDescriptor>,
    pages: seq<PageEntry>,
    fixupPages: seq<FixupPageEntry>)

  /** The three tables have the sizes the header declares; the fixup page
      table has one extra, closing entry. */
  predicate TablesSized(img: Image)
  {
    && |img.objects| == img.header.objectsInModule
    && |img.pages| == img.header.modulePages
    && |img.fixupPages| == img.header.modulePages + 1
  }

  // ---------------------------------------------------------------------
  // Table loading

  /** `n` object descriptors read one after another from offset `p`. */
  function ReadObjects(file: seq<byte>, p: int, n: nat): (r: seq<ObjectDescriptor>)
    requires 0 <= p && p + DESCRIPTOR_SIZE * n <= |file|
    ensures |r| == n
    ensures forall i :: 0 <= i < n ==> r[i] == DecodeObject(file, p + DESCRIPTOR_SIZE * i)
    decreases n
  {
    if n == 0 then []
    else
      var rest := ReadObjects(file, p + DESCRIPTOR_SIZE, n - 1);
      assert forall i :: 1 <= i < n ==> p + DESCRIPTOR_SIZE * i == p + DESCRIPTOR_SIZE + DESCRIPTOR_SIZE * (i - 1);
      [DecodeObject(file, p)] + rest
  }

  /** `n` entries of `stride` bytes each read one after another from offset `p`. */
  function ReadTable<T>(file: seq<byte>, p: int, n: nat, stride: nat, decode: (seq<byte>, int) -> T): (r: seq<T>)
    ensures |r| == n
    ensures forall i :: 0 <= i < n ==> r[i] == decode(file, p + stride * i)
    decreases n
  {
    if n == 0 then []
    else [decode(file, p)] + ReadTable(file, p + stride, n - 1, stride, decode)
  }

  predicate ObjectTableInFile(file: seq<byte>, base: nat, h: Header)
  {
    base + h.objectTableOffset + DESCRIPTOR_SIZE * h.objectsInModule <= |file|
  }

  /** loadObjectTable: `objects_in_module` descriptors, descriptor `i` read
      at `base + object_table_offset + 24 * i`. */
  function LoadObjectTable(file: seq<byte>, base: nat, h: Header): (r: seq<ObjectDescriptor>)
    requires ObjectTableInFile(file, base, h)
    ensures |r| == h.objectsInModule
    ensures forall i :: 0 <= i < |r| ==> r[i] == DecodeObject(file, ObjectEntryOffset(base, h, i))
  {
    ReadObjects(file, base + h.objectTableOffset, h.objectsInModule)
  }

  /** The object table loses nothing: descriptor `i` re-encodes to exactly
      the 24 bytes it was read from. */
  lemma ObjectTableRoundTrip(file: seq<byte>, base: nat, h: Header, i: int)
    requires ObjectTableInFile(file, base, h) && 0 <= i < h.objectsInModule
    ensures Encodable(LoadObjectTable(file, base, h)[i])
    ensures EncodeObject(LoadObjectTable(file, base, h)[i])
         == file[ObjectEntryOffset(base, h, i)..ObjectEntryOffset(base, h, i) + DESCRIPTOR_SIZE]
  {
    EncodeDecodeObject(file, ObjectEntryOffset(base, h, i));
  }

  function ObjectEntryOffset(base: nat, h: Header, i: nat): nat
  {
    base + h.objectTableOffset + DESCRIPTOR_SIZE * i
  }

  /** loadObjectPageTable: `module_of_pages` entries. */
  function LoadObjectPageTable(file: seq<byte>, base: nat, h: Header, decs: Decoders): (r: seq<PageEntry>)
    ensures |r| == h.modulePages
    ensures forall i :: 0 <= i < |r| ==>
      r[i] == decs.decodePage(file, base + h.objectPageTableOffset + decs.pageEntrySize(h.format) * i, h.format)
  {
    ReadTable(file, base + h.objectPageTableOffset, h.modulePages, decs.pageEntrySize(h.format),
              (s, p) => decs.decodePage(s, p, h.format))
  }

  /** loadFixupPageTable: `module_of_pages + 1` entries, the last one closing
      the final page's range. */
  function LoadFixupPageTable(file: seq<byte>, base: nat, h: Header, decs: Decoders): (r: seq<FixupPageEntry>)
    ensures |r| == h.modulePages + 1
    ensures forall i :: 0 <= i < |r| ==>
      r[i] == decs.decodeFixupPage(file, base + h.fixupPageTableOffset + decs.fixupPageEntrySize * i)
  {
    ReadTable(file, base + h.fixupPageTableOffset, h.modulePages + 1, decs.fixupPageEntrySize, decs.decodeFixupPage)
  }

  // ---------------------------------------------------------------------
  // Page ranges

  /** getPageEndIndex: one past the last page of the object, clamped to the
      module's page count. */
  function PageEndIndex(h: Header, o: ObjectDescriptor): (r: int)
    ensures r <= h.modulePages
    ensures r <= o.pageTableIndex + o.pageTableEntries
    ensures r == h.modulePages || r == o.pageTableIndex + o.pageTableEntries
  {
    if o.pageTableIndex + o.pageTableEntries <= h.modulePages then o.pageTableIndex + o.pageTableEntries
    else h.modulePages
  }

  /** The page loops index the tables with every `oi` from the page table
      index up to the end index; this is only possible when the range is
      empty or starts at a valid index. */
  predicate Addressable(h: Header, o: ObjectDescriptor)
  {
    o.pageTableIndex >= 0 || PageEndIndex(h, o) <= o.pageTableIndex
  }

  /** Every page index the loops visit is a valid object page table index,
      `oi + 1` a valid fixup page table index, and the page is one of the
      object's own pages. */
  lemma VisitedPagesInBounds(img: Image, o: ObjectDescriptor, oi: int)
    requires TablesSized(img) && Addressable(img.header, o)
    requires o.pageTableIndex <= oi < PageEndIndex(img.header, o)
    ensures 0 <= oi < |img.pages|
    ensures oi + 1 < |img.fixupPages|
    ensures oi + 1 <= img.header.modulePages
    ensures oi < o.pageTableIndex + o.pageTableEntries
  {
  }

  /** The byte offset, within the object's buffer, at which page `oi` begins. */
  function PageBase(h: Header, o: ObjectDescriptor, oi: int): int
  {
    (oi - o.pageTableIndex) * h.pageSize
  }

  // ---------------------------------------------------------------------
  // Fixup record scan

  /** Absolute offset of the fixup record range of page `oi`. */
  function FixupOffset(base: nat, h: Header, fixupPages: seq<FixupPageEntry>, oi: int): int
    requires 0 <= oi < |fixupPages|
  {
    base + h.fixupRecordTableOffset + fixupPages[oi].offset
  }

  /** The cursor positions the scan decodes at: from `start`, each step
      advancing by the size of the record read there, while below `end`. */
  function ScanCursors(file: seq<byte>, decode: RecordDecoder, start: int, end: int, baseOffset: int): (cs: seq<int>)
    ensures |cs| > 0 <==> start < end
    ensures |cs| > 0 ==> cs[0] == start
    ensures forall k :: 0 <= k < |cs| ==> start <= cs[k] < end
    ensures CursorSteps(file, decode, cs, baseOffset)
    ensures |cs| > 0 ==> cs[|cs| - 1] + decode(file, cs[|cs| - 1], baseOffset).size >= end
    decreases end - start
  {
    if start >= end then []
    else [start] + ScanCursors(file, decode, start + decode(file, start, baseOffset).size, end, baseOffset)
  }

  /** Each cursor is the previous one advanced by the size of the record read there. */
  predicate CursorSteps(file: seq<byte>, decode: RecordDecoder, cs: seq<int>, baseOffset: int)
  {
    forall k :: 0 <= k < |cs| - 1 ==> cs[k + 1] == cs[k] + decode(file, cs[k], baseOffset).size
  }

  /** The records found between `start` and `end`, in file order, each
      built with the page's base offset, which the record keeps. No check
      stops the last record from extending past `end`. */
  function ScanPage(file: seq<byte>, decode: RecordDecoder, start: int, end: int, baseOffset: int)
    : seq<FixupRecord>
    decreases end - start
  {
    if start >= end then []
    else
      var d := decode(file, start, baseOffset);
      [d.record.(baseOffset := baseOffset)] + ScanPage(file, decode, start + d.size, end, baseOffset)
  }

  /** The scan yields one record per cursor: the record decoded at that
      cursor with the page's base offset, and keeping it. */
  lemma {:induction false} ScanPageAtCursors(file: seq<byte>, decode: RecordDecoder, start: int, end: int,
                                             baseOffset: int)
    ensures var r := ScanPage(file, decode, start, end, baseOffset);
      var cs := ScanCursors(file, decode, start, end, baseOffset);
      && |r| == |cs|
      && forall k :: 0 <= k < |r| ==> r[k] == decode(file, cs[k], baseOffset).record.(baseOffset := baseOffset)
    decreases end - start
  {
    if start < end {
      var d := decode(file, start, baseOffset);
      var next := start + d.size;
      ScanPageAtCursors(file, decode, next, end, baseOffset);
      var r := ScanPage(file, decode, start, end, baseOffset);
      var cs := ScanCursors(file, decode, start, end, baseOffset);
      var r1 := ScanPage(file, decode, next, end, baseOffset);
      var cs1 := ScanCursors(file, decode, next, end, baseOffset);
      assert r == [d.record.(baseOffset := baseOffset)] + r1;
      assert cs == [start] + cs1;
      forall k | 0 <= k < |r|
        ensures r[k] == decode(file, cs[k], baseOffset).record.(baseOffset := baseOffset)
      {
        if k > 0 {
          assert r[k] == r1[k - 1] && cs[k] == cs1[k - 1];
        }
      }
    }
  }

  /** The records of pages `oi` up to `end`, page by page. The scan reads
      only the header base, the header and the fixup page table. */
  function PagesFixups(base: nat, h: Header, fixupPages: seq<FixupPageEntry>, file: seq<byte>,
                       decode: RecordDecoder, o: ObjectDescriptor, oi: int, end: int)
    : (r: seq<FixupRecord>)
    requires |fixupPages| == h.modulePages + 1
    requires oi < end ==> 0 <= oi && end <= h.modulePages
    decreases end - oi
  {
    if oi >= end then []
    else
      ScanPage(file, decode, FixupOffset(base, h, fixupPages, oi), FixupOffset(base, h, fixupPages, oi + 1),
               PageBase(h, o, oi))
      + PagesFixups(base, h, fixupPages, file, decode, o, oi + 1, end)
  }

  /** All records found on the object's pages, in page order and, within a
      page, in file order. */
  function ObjectFixups(img: Image, file: seq<byte>, decode: RecordDecoder, o: ObjectDescriptor)
    : seq<FixupRecord>
    requires TablesSized(img) && Addressable(img.header, o)
  {
    PagesFixups(img.base, img.header, img.fixupPages, file, decode, o, o.pageTableIndex, PageEndIndex(img.header, o))
  }

  /** Every record of the list carries base offset `b`. */
  predicate AllTagged(r: seq<FixupRecord>, b: int)
  {
    forall k :: 0 <= k < |r| ==> r[k].baseOffset == b
  }

  /** No record's base offset is below `lo`. */
  predicate AtLeast(r: seq<FixupRecord>, lo: int)
  {
    forall k :: 0 <= k < |r| ==> lo <= r[k].baseOffset
  }

  /** Every record carries the base offset of one of pages `oi` up to `end`. */
  predicate FromPages(r: seq<FixupRecord>, h: Header, o: ObjectDescriptor, oi: int, end: int)
  {
    forall k :: 0 <= k < |r| ==> exists p :: oi <= p < end && r[k].baseOffset == PageBase(h, o, p)
  }

  /** Base offsets never decrease along the list. */
  predicate BasesOrdered(r: seq<FixupRecord>)
  {
    forall a, b :: 0 <= a <= b < |r| ==> r[a].baseOffset <= r[b].baseOffset
  }

  /** Every record of one page's scan carries that page's base offset. */
  lemma {:induction false} ScanPageTagged(file: seq<byte>, decode: RecordDecoder, start: int, end: int,
                                          baseOffset: int)
    ensures AllTagged(ScanPage(file, decode, start, end, baseOffset), baseOffset)
  {
    ScanPageAtCursors(file, decode, start, end, baseOffset);
  }

  lemma PageBaseStep(h: Header, o: ObjectDescriptor, oi: int)
    ensures PageBase(h, o, oi + 1) == PageBase(h, o, oi) + h.pageSize
  {
  }

  lemma ConcatAtLeast(s: seq<FixupRecord>, rest: seq<FixupRecord>, b: int, lo: int)
    requires AllTagged(s, b) && lo <= b && AtLeast(rest, lo)
    ensures AtLeast(s + rest, lo)
  {
    forall k | 0 <= k < |s + rest|
      ensures lo <= (s + rest)[k].baseOffset
    {
      if k >= |s| {
        assert (s + rest)[k] == rest[k - |s|];
      }
    }
  }

  lemma AtLeastWeaken(r: seq<FixupRecord>, lo: int, lower: int)
    requires AtLeast(r, lo) && lower <= lo
    ensures AtLeast(r, lower)
  {
  }

  lemma ConcatFromPages(s: seq<FixupRecord>, rest: seq<FixupRecord>, h: Header, o: ObjectDescriptor, oi: int, end: int)
    requires oi < end && AllTagged(s, PageBase(h, o, oi)) && FromPages(rest, h, o, oi + 1, end)
    ensures FromPages(s + rest, h, o, oi, end)
  {
    forall k | 0 <= k < |s + rest|
      ensures exists p :: oi <= p < end && (s + rest)[k].baseOffset == PageBase(h, o, p)
    {
      if k < |s| {
        assert (s + rest)[k] == s[k];
        assert oi <= oi < end && (s + rest)[k].baseOffset == PageBase(h, o, oi);
      } else {
        assert (s + rest)[k] == rest[k - |s|];
        var p :| oi + 1 <= p < end && rest[k - |s|].baseOffset == PageBase(h, o, p);
      }
    }
  }

  lemma ConcatOrdered(s: seq<FixupRecord>, rest: seq<FixupRecord>, b: int)
    requires AllTagged(s, b) && AtLeast(rest, b) && BasesOrdered(rest)
    ensures BasesOrdered(s + rest)
  {
    var r := s + rest;
    forall x, y | 0 <= x <= y < |r|
      ensures r[x].baseOffset <= r[y].baseOffset
    {
      if y < |s| {
        assert r[x] == s[x] && r[y] == s[y];
      } else if x < |s| {
        assert r[x] == s[x] && r[y] == rest[y - |s|];
      } else {
        assert r[x] == rest[x - |s|] && r[y] == rest[y - |s|];
      }
    }
  }

  /** Every record found on pages `oi` up to `end` carries the base offset of
      one of those pages, never below the base offset of page `oi`. */
  lemma {:induction false} PagesFixupsBases(base: nat, h: Header, fixupPages: seq<FixupPageEntry>, file: seq<byte>,
                                            decode: RecordDecoder, o: ObjectDescriptor, oi: int, end: int)
    requires |fixupPages| == h.modulePages + 1
    requires oi < end ==> 0 <= oi && end <= h.modulePages
    ensures FromPages(PagesFixups(base, h, fixupPages, file, decode, o, oi, end), h, o, oi, end)
    ensures AtLeast(PagesFixups(base, h, fixupPages, file, decode, o, oi, end), PageBase(h, o, oi))
    decreases end - oi
  {
    if oi < end {
      var s := ScanPage(file, decode, FixupOffset(base, h, fixupPages, oi), FixupOffset(base, h, fixupPages, oi + 1),
                        PageBase(h, o, oi));
      var rest := PagesFixups(base, h, fixupPages, file, decode, o, oi + 1, end);
      assert PagesFixups(base, h, fixupPages, file, decode, o, oi, end) == s + rest;
      PagesFixupsBases(base, h, fixupPages, file, decode, o, oi + 1, end);
      ScanPageTagged(file, decode, FixupOffset(base, h, fixupPages, oi), FixupOffset(base, h, fixupPages, oi + 1),
                     PageBase(h, o, oi));
      PageBaseStep(h, o, oi);
      ConcatFromPages(s, rest, h, o, oi, end);
      ConcatAtLeast(s, rest, PageBase(h, o, oi), PageBase(h, o, oi));
    }
  }

  /** Records appear in page order: base offsets never decrease along the list. */
  lemma {:induction false} PagesFixupsOrdered(base: nat, h: Header, fixupPages: seq<FixupPageEntry>, file: seq<byte>,
                                              decode: RecordDecoder, o: ObjectDescriptor, oi: int, end: int)
    requires |fixupPages| == h.modulePages + 1
    requires oi < end ==> 0 <= oi && end <= h.modulePages
    ensures BasesOrdered(PagesFixups(base, h, fixupPages, file, decode, o, oi, end))
    decreases end - oi
  {
    if oi < end {
      var s := ScanPage(file, decode, FixupOffset(base, h, fixupPages, oi), FixupOffset(base, h, fixupPages, oi + 1),
                        PageBase(h, o, oi));
      var rest := PagesFixups(base, h, fixupPages, file, decode, o, oi + 1, end);
      assert PagesFixups(base, h, fixupPages, file, decode, o, oi, end) == s + rest;
      PagesFixupsOrdered(base, h, fixupPages, file, decode, o, oi + 1, end);
      PagesFixupsBases(base, h, fixupPages, file, decode, o, oi + 1, end);
      ScanPageTagged(file, decode, FixupOffset(base, h, fixupPages, oi), FixupOffset(base, h, fixupPages, oi + 1),
                     PageBase(h, o, oi));
      PageBaseStep(h, o, oi);
      AtLeastWeaken(rest, PageBase(h, o, oi + 1), PageBase(h, o, oi));
      ConcatOrdered(s, rest, PageBase(h, o, oi));
    }
  }

  /** An object's records, as attached by the loader: each carries the base
      offset `(p - page_table_index) * page_size` of one of the pages `p` the
      loop visits, so none is below zero, and they come in page order. */
  lemma ObjectFixupsShape(img: Image, file: seq<byte>, decode: RecordDecoder, o: ObjectDescriptor)
    requires TablesSized(img) && Addressable(img.header, o)
    ensures var r := ObjectFixups(img, file, decode, o);
      && FromPages(r, img.header, o, o.pageTableIndex, PageEndIndex(img.header, o))
      && AtLeast(r, 0)
      && BasesOrdered(r)
  {
    var h := img.header;
    var end := PageEndIndex(h, o);
    PagesFixupsBases(img.base, h, img.fixupPages, file, decode, o, o.pageTableIndex, end);
    PagesFixupsOrdered(img.base, h, img.fixupPages, file, decode, o, o.pageTableIndex, end);
    assert PageBase(h, o, o.pageTableIndex) == 0;
  }

  /** loadFixupRecordTable: each object keeps its fields and gets the
      records of its pages appended to its list. */
  function AttachFixups(img: Image, file: seq<byte>, decode: RecordDecoder, objs: seq<ObjectDescriptor>)
    : (r: seq<ObjectDescriptor>)
    requires TablesSized(img)
    requires forall i :: 0 <= i < |objs| ==> Addressable(img.header, objs[i])
    ensures |r| == |objs|
    ensures forall i :: 0 <= i < |objs| ==>
      r[i] == objs[i].(fixups := objs[i].fixups + ObjectFixups(img, file, decode, objs[i]))
    decreases |objs|
  {
    if |objs| == 0 then []
    else
      [objs[0].(fixups := objs[0].fixups + ObjectFixups(img, file, decode, objs[0]))]
      + AttachFixups(img, file, decode, objs[1..])
  }

  // ---------------------------------------------------------------------
  // Construction

  /** What loading needs of the file: the object table lies inside it, and
      every descriptor's page range can be indexed. */
  predicate Loadable(file: seq<byte>, base: nat, raw: Header)
  {
    && ObjectTableInFile(file, base, raw)
    && forall i :: 0 <= i < raw.objectsInModule ==>
         Addressable(raw, DecodeObject(file, ObjectEntryOffset(base, raw, i)))
  }

  /** The constructor: the header's data-pages offset is moved by the
      container offset once, then the tables are read and the fixup records
      attached. */
  function Load(file: seq<byte>, base: nat, exeOffset: nat, raw: Header, decs: Decoders): (img: Image)
    requires Loadable(file, base, raw)
    ensures TablesSized(img)
    ensures img.base == base
    ensures img.header == raw.(dataPagesOffset := raw.dataPagesOffset + exeOffset)
    ensures img.pages == LoadObjectPageTable(file, base, raw, decs)
    ensures img.fixupPages == LoadFixupPageTable(file, base, raw, decs)
    ensures ObjectsLoaded(img, file, raw, decs.decodeRecord)
  {
    var h := raw.(dataPagesOffset := raw.dataPagesOffset + exeOffset);
    var objects := LoadObjectTable(file, base, raw);
    LoadedAddressable(file, base, raw, h);
    var tables := Image(base, h, objects, LoadObjectPageTable(file, base, raw, decs), LoadFixupPageTable(file, base, raw, decs));
    var img := tables.(objects := AttachFixups(tables, file, decs.decodeRecord, objects));
    AttachedObjectsLoaded(file, raw, decs.decodeRecord, objects, tables, img);
    img
  }

  /** Moving the data pages does not change which page ranges can be indexed. */
  lemma LoadedAddressable(file: seq<byte>, base: nat, raw: Header, h: Header)
    requires Loadable(file, base, raw) && h == raw.(dataPagesOffset := h.dataPagesOffset)
    ensures forall i :: 0 <= i < raw.objectsInModule ==> Addressable(h, LoadObjectTable(file, base, raw)[i])
  {
  }

  lemma AttachedObjectsLoaded(file: seq<byte>, raw: Header, decode: RecordDecoder,
                              objects: seq<ObjectDescriptor>, tables: Image, img: Image)
    requires ObjectTableInFile(file, tables.base, raw)
    requires objects == LoadObjectTable(file, tables.base, raw)
    requires tables.objects == objects && TablesSized(tables)
    requires forall j :: 0 <= j < |objects| ==> Addressable(tables.header, objects[j])
    requires img == tables.(objects := AttachFixups(tables, file, decode, objects))
    ensures TablesSized(img) && |img.objects| == raw.objectsInModule
    ensures ObjectsLoaded(img, file, raw, decode)
  {
    forall i | 0 <= i < |img.objects|
      ensures ObjectLoaded(img, file, raw, decode, i)
    {
      AttachedObjectLoaded(file, raw, decode, objects, tables, img, i);
    }
  }

  /** Descriptor `i` of the image built by Load is the decoded descriptor
      with its pages' records attached. */
  lemma AttachedObjectLoaded(file: seq<byte>, raw: Header, decode: RecordDecoder,
                             objects: seq<ObjectDescriptor>, tables: Image, img: Image, i: int)
    requires ObjectTableInFile(file, tables.base, raw)
    requires objects == LoadObjectTable(file, tables.base, raw)
    requires tables.objects == objects && TablesSized(tables)
    requires forall j :: 0 <= j < |objects| ==> Addressable(tables.header, objects[j])
    requires img == tables.(objects := AttachFixups(tables, file, decode, objects))
    requires 0 <= i < |objects|
    ensures TablesSized(img) && |img.objects| == raw.objectsInModule
    ensures ObjectLoaded(img, file, raw, decode, i)
  {
    var o := objects[i];
    assert o == DecodeObject(file, ObjectEntryOffset(img.base, raw, i));
    AttachedFresh(tables, file, decode, objects, i);
    assert ObjectFixups(img, file, decode, o) == ObjectFixups(tables, file, decode, o);
  }

  /** Descriptor `i` of the image is the one decoded from the file, with the
      records of its pages attached. */
  predicate ObjectLoaded(img: Image, file: seq<byte>, raw: Header, decode: RecordDecoder, i: int)
    requires TablesSized(img) && ObjectTableInFile(file, img.base, raw) && raw.objectsInModule == |img.objects|
    requires 0 <= i < |img.objects|
  {
    var o := DecodeObject(file, ObjectEntryOffset(img.base, raw, i));
    && Addressable(img.header, o)
    && img.objects[i] == o.(fixups := ObjectFixups(img, file, decode, o))
  }

  predicate ObjectsLoaded(img: Image, file: seq<byte>, raw: Header, decode: RecordDecoder)
    requires TablesSized(img) && ObjectTableInFile(file, img.base, raw) && raw.objectsInModule == |img.objects|
  {
    forall i :: 0 <= i < |img.objects| ==> ObjectLoaded(img, file, raw, decode, i)
  }

  /** A descriptor with no records yet ends up holding exactly its pages' records. */
  lemma AttachedFresh(img: Image, file: seq<byte>, decode: RecordDecoder, objs: seq<ObjectDescriptor>, i: int)
    requires TablesSized(img)
    requires forall j :: 0 <= j < |objs| ==> Addressable(img.header, objs[j])
    requires 0 <= i < |objs| && objs[i].fixups == []
    ensures AttachFixups(img, file, decode, objs)[i] == objs[i].(fixups := ObjectFixups(img, file, decode, objs[i]))
  {
    var fs := ObjectFixups(img, file, decode, objs[i]);
    assert [] + fs == fs;
  }

  /** getEIPAddress: the entry object's relocation base plus the entry offset. */
  function EipAddress(img: Image): int
    requires img.header.eipObject < |img.objects|
  {
    img.objects[img.header.eipObject].relocBaseAddr + img.header.eip
  }

  /** For a loaded image, the entry point is the 32-bit relocation base found
      at byte 4 of descriptor `eip_object`, plus `eip`. */
  lemma EipAddressOfLoad(file: seq<byte>, base: nat, exeOffset: nat, raw: Header, decs: Decoders)
    requires Loadable(file, base, raw) && raw.eipObject < raw.objectsInModule
    ensures var img := Load(file, base, exeOffset, raw, decs);
      && img.header.eipObject < |img.objects|
      && EipAddress(img) == ReadU32(file, ObjectEntryOffset(base, raw, raw.eipObject) + 4) + raw.eip
  {
  }
}

=== FILE: object_table.dfy ===
/**
 The object descriptor: one entry of the object table, 24 bytes on disk,
 six consecutive unsigned 32-bit fields.
 */
module ObjectTable {
  import opened Bytes
  import opened Tables

  const DESCRIPTOR_SIZE: nat := 24

  /** `pageTableIndex` is 0-based (the on-disk value minus one); `fixups`
      collects the relocation records found on the object's pages. */
  datatype ObjectDescriptor = ObjectDescriptor(
    virtualSize: nat,
    relocBaseAddr: nat,
    objectFlags: nat,
    pageTableIndex: int,
    pageTableEntries: nat,
    reserved: nat,
    fixups: seq<FixupRecord>)

  /** Reads a descriptor at offset `p`: virtual size, relocation base,
      flags, page table index, page table entry count, reserved. */
  function DecodeObject(s: seq<byte>, p: int): (o: ObjectDescriptor)
    requires 0 <= p && p + DESCRIPTOR_SIZE <= |s|
    ensures o.virtualSize < TWO32 && o.relocBaseAddr < TWO32 && o.objectFlags < TWO32
    ensures o.pageTableEntries < TWO32 && o.reserved < TWO32
    ensures -1 <= o.pageTableIndex <= TWO32 - 2
    ensures o.fixups == []
  {
    ObjectDescriptor(
      ReadU32(s, p),
      ReadU32(s, p + 4),
      ReadU32(s, p + 8),
      ReadU32(s, p + 12) - 1,
      ReadU32(s, p + 16),
      ReadU32(s, p + 20),
      [])
  }

  /** The descriptors that have an on-disk form: every field fits its 32-bit
      slot and no fixups are attached yet. */
  predicate Encodable(o: ObjectDescriptor)
  {
    && o.virtualSize < TWO32 && o.relocBaseAddr < TWO32 && o.objectFlags < TWO32
    && -1 <= o.pageTableIndex <= TWO32 - 2
    && o.pageTableEntries < TWO32 && o.reserved < TWO32
    && o.fixups == []
  }

  /** The on-disk form of a descriptor (page table index stored 1-based). */
  function EncodeObject(o: ObjectDescriptor): (bs: seq<byte>)
    ensures |bs| == DESCRIPTOR_SIZE
  {
    EncodeWords(Words(o))
  }

  /** The six on-disk words of a descriptor, in file order. */
  function Words(o: ObjectDescriptor): seq<int>
  {
    [o.virtualSize, o.relocBaseAddr, o.objectFlags, o.pageTableIndex + 1, o.pageTableEntries, o.reserved]
  }

  /** Decoding an encoded descriptor gives it back. */
  lemma DecodeEncodeObject(o: ObjectDescriptor)
    requires Encodable(o)
    ensures DecodeObject(EncodeObject(o), 0) == o
  {
    var ws := Words(o);
    var bs := EncodeWords(ws);
    assert EncodeObject(o) == bs;
    EncodeWordsRead(ws, 0, 0);
    EncodeWordsRead(ws, 1, 4);
    EncodeWordsRead(ws, 2, 8);
    EncodeWordsRead(ws, 3, 12);
    EncodeWordsRead(ws, 4, 16);
    EncodeWordsRead(ws, 5, 20);
    DecodeFields(bs, o);
  }

  /** A window whose six words are a descriptor's on-disk words decodes to it. */
  lemma DecodeFields(bs: seq<byte>, o: ObjectDescriptor)
    requires |bs| == DESCRIPTOR_SIZE && o.fixups == []
    requires ReadU32(bs, 0) == o.virtualSize && ReadU32(bs, 4) == o.relocBaseAddr
    requires ReadU32(bs, 8) == o.objectFlags && ReadU32(bs, 12) == o.pageTableIndex + 1
    requires ReadU32(bs, 16) == o.pageTableEntries && ReadU32(bs, 20) == o.reserved
    ensures DecodeObject(bs, 0) == o
  {
    var d := DecodeObject(bs, 0);
    assert d.virtualSize == o.virtualSize && d.relocBaseAddr == o.relocBaseAddr;
    assert d.objectFlags == o.objectFlags && d.pageTableIndex == o.pageTableIndex;
    assert d.pageTableEntries == o.pageTableEntries && d.reserved == o.reserved;
  }

  /** Every 24-byte window decodes to an encodable descriptor whose encoding
      is that window: the decoder loses nothing and reads nothing else. */
  lemma EncodeDecodeObject(s: seq<byte>, p: int)
    requires 0 <= p && p + DESCRIPTOR_SIZE <= |s|
    ensures Encodable(DecodeObject(s, p))
    ensures EncodeObject(DecodeObject(s, p)) == s[p..p + DESCRIPTOR_SIZE]
  {
    var o := DecodeObject(s, p);
    var ws := ReadWords(s, p, 6);
    ReadWordsAt(s, p, 6, 0);
    ReadWordsAt(s, p, 6, 1);
    ReadWordsAt(s, p, 6, 2);
    ReadWordsAt(s, p, 6, 3);
    ReadWordsAt(s, p, 6, 4);
    ReadWordsAt(s, p, 6, 5);
    assert Words(o) == ws;
    EncodeReadWords(s, p, 6);
  }

  /** The permission bits a host mapping derives from `object_flags`. */
  predicate Readable(o: ObjectDescriptor) { o.objectFlags % 2 == 1 }
  predicate Writable(o: ObjectDescriptor) { (o.objectFlags / 2) % 2 == 1 }
  predicate Executable(o: ObjectDescriptor) { (o.objectFlags / 4) % 2 == 1 }

  /** The three permissions are exactly the low three bits of the flags. */
  lemma PermissionBits(o: ObjectDescriptor)
    ensures o.objectFlags % 8
      == (if Readable(o) then 1 else 0) + (if Writable(o) then 2 else 0) + (if Executable(o) then 4 else 0)
  {
    var f := o.objectFlags;
    DivModNestSmall(f);
  }

  lemma DivModNestSmall(f: nat)
    ensures f % 8 == f % 2 + 2 * ((f / 2) % 2) + 4 * ((f / 4) % 2)
  {
    var q := f / 8;
    var r := f % 8;
    DivModUnique(f, 2, 4 * q + r / 2, r % 2);
    DivModUnique(f / 2, 2, 2 * q + r / 4, (r / 2) % 2);
    DivModUnique(f, 4, 2 * q + r / 4, r % 4);
    DivModUnique(f / 4, 2, q, r / 4);
    assert r == r % 2 + 2 * ((r / 2) % 2) + 4 * (r / 4);
  }
}

=== FILE: tables.dfy ===
/**
 The header and the table entries the loader reads, holding only the fields
 the loader uses. Their byte layouts are decoded by code outside this model;
 the loader receives those decoders as function values (`Decoders`).
 */
module Tables {
  import opened Bytes

  /** The two on-disk page-addressing conventions. */
  datatype Format = LE | LX

  /** The fields of the LX/LE header the loader reads. All are unsigned. */
  datatype Header = Header(
    format: Format,
    objectTableOffset: nat,
    objectsInModule: nat,
    objectPageTableOffset: nat,
    modulePages: nat,
    fixupPageTableOffset: nat,
    fixupRecordTableOffset: nat,
    dataPagesOffset: nat,
    pageSize: nat,
    pageOffsetShift: nat,
    eipObject: nat,
    eip: nat)

  /** One object page table entry: `pageNum` is used by LE images,
      `pageDataOffset` and `dataSize` by LX images. */
  datatype PageEntry = PageEntry(pageNum: nat, pageDataOffset: nat, dataSize: nat)

  /** One fixup page table entry: an offset into the fixup record table. */
  datatype FixupPageEntry = FixupPageEntry(offset: nat)

  /** One relocation record. `dstOffsets` are the destination offsets as the
      applier uses them, relative to the object's assembled buffer;
      `baseOffset` is the byte offset, within the object, of the page whose
      fixup range the record was found in. */
  datatype FixupRecord = FixupRecord(
    sourceType: int,
    targetObject: int,
    trgoff: int,
    dstOffsets: seq<int>,
    baseOffset: int)

  /** A record's encoded size is self-described and never zero. */
  type RecordSize = n: int | 0 < n witness 1

  datatype Decoded = Decoded(record: FixupRecord, size: RecordSize)

  /** The fixup record constructor: decodes the record at a file offset,
      given the base offset of the page whose range it was found in (the
      constructor receives it and may use it, for instance for the
      destination offsets it reports). */
  type RecordDecoder = (seq<byte>, int, int) -> Decoded

  /** Decoders for the tables whose byte layouts are outside this model,
      each reading at a given offset of the file. An object page table
      entry has a different on-disk size in LE and in LX, so its stride
      depends on the format. */
  datatype Decoders = Decoders(
    pageEntrySize: Format -> nat,
    decodePage: (seq<byte>, int, Format) -> PageEntry,
    fixupPageEntrySize: nat,
    decodeFixupPage: (seq<byte>, int) -> FixupPageEntry,
    decodeRecord: RecordDecoder)
}
